=== FILE: README.md ===
# robo-cjk glif models in Dafny

This project models the per-record logic of the robo-cjk font database (`robocjk/models.py`).
The model covers these parts:

- the edit lock that every status-bearing glif carries;
- the review status derived from a glif's payload, and the per-variation "downgraded" flag;
- the fields a glif row caches from its parsed `.glif` xml;
- the component relations that are relinked by name on every save;
- the `save` sequence;
- the tombstone tag of a deleted glif;
- the layer helpers (`rename`, and the parent's `layers_updated_at`);
- the pure decisions of a font export and of a project export.

The tables of the five glif kinds (character glyphs, deep components, atomic elements and the two layer kinds) are one map from `(kind, pk)` to a generic row. The component relations are a map from `(row, target kind)` to a set of rows. The tombstones are a sequence.

The clock is an integer number of seconds passed in as `now`. The xml parser is a parameter `parse: string -> Option<GlifData>`, where `None` stands for a parse error. File system listings, database counts and the outcome of each verification step are inputs.

Modules:

- `Common`: `Option` and `Result`.
- `Text`: comma splitting, joining, and decimal integers, as the Python code uses them.
- `Locking`: `LockableModel`.
- `Status`: `StatusModel`.
- `Glifs`: the record shapes, the component edge table, the tombstone tag, and `components_names`.
- `GlifDataModel`: `_parse_data`, `_apply_data`, `_update_init_data`, `_update_status`, `_update_components`, `save`.
- `Timestamps`: the `Max` aggregate and the later of two optional stamps.
- `Layers`: layer `rename`, layer `save`, `update_layers_updated_at`.
- `FontExport`: the `Font` export, cleanup, verification, editors and commit message.
- `Projects`: `Project.save_by`, the branch fallback, stale font folders, and `run_commands`.

## Model

| member | source | states |
|---|---|---|
| Locking.LockBy | robocjk/models.py:964-987 | Only a valid user (present, not anonymous, active) can lock, and only an unlocked record. On success the three lock fields are set together to (locked, user, now). Otherwise the answer is false and the record is unchanged, even when the caller already holds the lock. |
| Locking.UnlockBy | robocjk/models.py:999-1023 | An invalid user without force is refused. A locked record is cleared, all three fields at once, exactly when forced or asked by its holder; otherwise it answers false and changes nothing. An unlocked record answers true. |
| Locking.DeleteUser | robocjk/models.py:948-955 | Deleting a user nulls `locked_by` only on the records that user held, and leaves `is_locked` and `locked_at` alone. |
| Locking.LockableIffLockSucceeds | robocjk/models.py:969-992 | `is_lockable_by(u)` answers true exactly when `lock_by(u)` would succeed. |
| Locking.LockUnlockPreserveAgreement | robocjk/models.py:969-1023 | Lock and unlock keep the three lock fields in agreement: locked with a holder and a time, or unlocked with neither. |
| Locking.LockedByAfterLock | robocjk/models.py:969-997 | After a successful lock the caller holds it and nobody can lock the record. |
| Locking.HolderCannotRelock | robocjk/models.py:969-987 | A holder who locks again gets false and the record is unchanged. |
| Locking.ForceUnlockAlwaysSucceeds | robocjk/models.py:999-1023 | A forced unlock answers true for any caller, including a missing one, and leaves the record unlocked, whatever its fields held. A locked record, an orphaned one included, ends with all three fields cleared. |
| Locking.HolderUnlockThenRelock | robocjk/models.py:969-1023 | A holder's unlock releases the lock, after which any valid user can take it. |
| Locking.DeletingHolderBreaksAgreement | robocjk/models.py:948-955 | Deleting the holder leaves a locked record with a time and no holder, so the agreement does not hold everywhere. |
| Locking.OrphanedLockNeedsForce | robocjk/models.py:994-1023 | A lock whose holder was deleted is held by nobody. Nobody can lock it, and only a forced unlock clears it. |
| Locking.UnlockSelected | robocjk/admin.py:580-594 | The bulk "Unlock selected glyphs" action force-unlocks every selected record and counts every one as unlocked. |
| Status.StatusColor | robocjk/models.py:1131-1133 | Each of the five named statuses gets its own colour. The colour is `#000000` exactly for a status outside the five. |
| Status.GetStatusFromData | robocjk/models.py:1135-1152 | An explicit status index wins and is kept as exactly its decimal rendering, the one `f"{i}"` gives, which parses back to the index. Otherwise a known mark colour gives its named status. Otherwise the status is "wip". |
| Status.DerivedStatusNeverEmpty | robocjk/models.py:1135-1152 | The derived status is never empty. |
| Status.IndexedStatusIsUnnamed | robocjk/models.py:1131-1152 | A status kept from an index is never one of the five names, so it is shown in black. The index 4 becomes "4", not "done". |
| Status.MarkColorsCoverNamed | robocjk/models.py:1081-1094 | Every named status is derived from exactly one mark colour and has a non-black colour. |
| Text.IntToStringRoundTrip | robocjk/models.py:1139-1143 | The decimal string of an integer status index parses back to that index. |
| Text.IntToStringInjective | robocjk/models.py:1139-1143 | Different indices give different status strings. |
| Text.SplitJoinRoundTrip | robocjk/models.py:1216-1218 | Splitting on "," a comma-joined list of comma-free parts gives back those parts. |
| Text.JoinSplitRoundTrip | robocjk/models.py:1216-1218 | Joining with "," the parts of a split gives back the original string. |
| Glifs.ComponentTargets | robocjk/models.py:1563-1573 | A character glyph links character glyphs and deep components (this method), a deep component links atomic elements (its override at models.py lines 1683-1689), and every other kind links nothing (the base at lines 1220-1221). No layer kind is ever a target. |
| Glifs.GlifTypeByGlif | robocjk/models.py:1448-1461 | Each of the five kinds gets its tombstone tag, and the tag maps back to the kind. Any other object is a `ValueError`. |
| Glifs.GlifTypeTagInjective | robocjk/models.py:1425-1430 | Two kinds never share a tag. |
| Glifs.ComponentsNames | robocjk/models.py:1216-1218 | A name is listed exactly when it is a non-empty comma-separated segment of `components`. This is membership only, which is all the `name__in` lookup at models.py line 1381 reads. None of the names is empty or holds a comma. |
| Glifs.ComponentsNamesRoundTrip | robocjk/models.py:1216-1218 | A list of non-empty, comma-free names written comma-separated is read back exactly. |
| Glifs.ComponentsNamesDropEmptySegments | robocjk/models.py:1216-1218 | Leading, trailing and doubled commas name nothing: ",a,,b," gives ["a", "b"], and "" gives no names. |
| GlifDataModel.UpdateInitData | robocjk/models.py:1306-1308 | A remembered payload is kept. Otherwise the current payload becomes the remembered one. |
| GlifDataModel.ParseData | robocjk/models.py:1271-1282 | An empty payload is never parsed. Any other payload is whatever the parser makes of it. |
| GlifDataModel.ApplyData | robocjk/models.py:1284-1304 | A failed parse changes nothing. Otherwise the cached fields become the parsed fields, the status, lock and stamps stay, and removal of the old file is asked for exactly when the row had a filename and the payload names another. |
| GlifDataModel.ApplyDataIdempotent | robocjk/models.py:1284-1304 | Applying the same parsed payload twice is the same as applying it once, and the second time asks for no file removal. This holds whenever a payload was already remembered or the row's data is non-empty. |
| GlifDataModel.ApplyDataIdempotentOnOwnPayload | robocjk/models.py:1271-1304 | For the payload `_parse_data` makes of the row's own data, applying it twice is applying it once, with no condition. |
| GlifDataModel.VariationChanges | robocjk/models.py:1327-1346 | A downgrade is some key of the current variation map whose earlier value was 4 and is now below 4. An upgrade is a key below 4 that is now 4. A missing earlier key counts as 0. |
| GlifDataModel.OnlyNewKeysMatter | robocjk/models.py:1336-1346 | Keys absent from the current map never influence the scan. |
| GlifDataModel.ApplyChanges | robocjk/models.py:1348-1354 | A downgrade raises the flag and stamps the time only if the flag was not already raised. Otherwise an upgrade clears the flag and its time. The status columns stay. |
| GlifDataModel.DowngradeWinsOverUpgrade | robocjk/models.py:1336-1354 | A save that both downgrades one variation and brings another to done leaves the flag raised. |
| GlifDataModel.UnchangedVariationsKeepFlag | robocjk/models.py:1331-1354 | Equal variation maps leave the flag and its time as they were, whatever the statuses are. |
| GlifDataModel.ApplyDerivedStatus | robocjk/models.py:1362-1366 | `previous_status`, `status` and `status_changed_at` move together, and only when the derived status differs from the current one. |
| GlifDataModel.UpdateStatus | robocjk/models.py:1310-1366 | A failed parse, a layer, or an unchanged payload leave the row as it is. A row with no remembered payload, a fresh instance, only remembers the current payload; its status and flag stay. Otherwise the payload becomes the remembered one and the status is re-derived from it. Only the status columns and the remembered payload ever change. |
| GlifDataModel.UpdateStatusRaisesDowngrade | robocjk/models.py:1325-1354 | A status-bearing row whose remembered payload parses, and has a variation at done that the new payload lowers, ends with the flag raised. |
| GlifDataModel.UpdateStatusClearsOnUpgrade | robocjk/models.py:1325-1354 | When no variation leaves done and some variation reaches done, `_update_status` clears a raised flag together with its time. A flag that was not raised stays as it was. |
| GlifDataModel.UpdateStatusKeepsFlagWhenEarlierUnparsable | robocjk/models.py:1325-1328 | An earlier payload that does not parse leaves the downgrade flag and its time as they were, whatever the new payload holds. |
| GlifDataModel.UpdateStatusKeepsFlagWithoutCrossing | robocjk/models.py:1336-1354 | When the earlier payload parses and no variation leaves or reaches done, the flag and its time stay as they were. |
| GlifDataModel.Relink | robocjk/models.py:1372-1386 | Each listed target relation becomes its resolution, and every other relation is kept. |
| GlifDataModel.UpdateComponents | robocjk/models.py:1368-1388 | It answers true exactly for a row with components of a kind that has relations. Then each relation is exactly the rows of the target kind in the same font whose name is listed, deleted rows and the row itself included. Otherwise nothing changes. No other relation is changed or added, for this row or any other. |
| GlifDataModel.SelfLinkIsAccepted | robocjk/models.py:1368-1388 | There is no cycle check: a character glyph that lists its own name links to itself. |
| GlifDataModel.UnknownNamesAreDropped | robocjk/models.py:1368-1388 | Names that match no row are dropped silently. The answer is still true and the relations are left empty. |
| GlifDataModel.SaveRow | robocjk/models.py:1396-1400 | The row part of `save` keeps the owner, the lock, the deleted flag and `layers_updated_at`, and stamps `updated_at` with the save time. |
| GlifDataModel.SaveDerivesStatus | robocjk/models.py:1396-1400 | A save of a status-bearing row whose remembered payload differs from the new parsed one runs `_update_status`. The row ends with the status derived from the new payload and the new payload remembered. `previous_status` and `status_changed_at` move exactly when the status changes. |
| GlifDataModel.SaveRaisesDowngrade | robocjk/models.py:1396-1400 | A save whose new payload lowers a variation that the remembered payload had at done raises the flag, stamping the time only if it was not already raised. |
| GlifDataModel.SaveKeepsFlagWithoutCrossing | robocjk/models.py:1396-1400 | A save whose new payload moves no variation across done, against a remembered payload that parses, leaves the flag and its time as they were. |
| GlifDataModel.SaveRowCachesPayload | robocjk/models.py:1396-1400 | A save whose payload parses leaves the cache equal to the parsed fields, and asks for the old file's removal exactly when the filename changes from a non-empty one. |
| GlifDataModel.SaveRowKeepsCacheOnParseError | robocjk/models.py:1396-1400 | A save whose payload does not parse changes only the remembered payload and `updated_at`. |
| GlifDataModel.SaveRowTwiceIsStable | robocjk/models.py:1396-1400 | Saving again, with a parser that reads its own formatted output back unchanged, changes only `updated_at`. |
| GlifDataModel.Save | robocjk/models.py:1396-1403 | `save` writes the row part and then relinks that row's components from the written row. When it answers true, each relation of the row is exactly the rows of the target kind in the same font whose name the written row lists. When it answers false, no relation changes. Every other row and the tombstones are untouched, and no relation other than the row's own target relations is changed or added. |
| Timestamps.LatestOf | robocjk/models.py:1591-1595 | The later of two optional stamps is absent only when both are, is one of them, and is no earlier than either. |
| Timestamps.MaxOf | robocjk/models.py:1582-1589 | The `Max` aggregate is absent exactly for no rows. Otherwise it is the greatest value. |
| Timestamps.LatestOfMaxima | robocjk/models.py:1581-1598 | The later of the two maxima is the maximum of the union of both sets. |
| Layers.ParentKind | robocjk/models.py:1618-1623 | A layer's parent is a character glyph or an atomic element, whose layer table is the layer's own. |
| Layers.Rename | robocjk/models.py:1640-1644 | Renaming to the current group name does nothing. Otherwise it asks to remove the old file and changes only the group name. |
| Layers.RenameIdempotentAndReversible | robocjk/models.py:1793-1797 | Renaming twice to one name is renaming once, and renaming back restores the layer. |
| Layers.UpdateLayersUpdatedAt | robocjk/models.py:1734-1755 | The parent's stamp becomes the latest of its layers' `updated_at` and the `deleted_at` of the layer-table tombstones whose `glif_id` is the parent's id, and is absent only when there is neither. Nothing else changes. |
| Layers.LayerSave | robocjk/models.py:1646-1648 | A layer save writes the layer row through the glif save, then sets its parent's stamp. The stamp is the latest `updated_at` of the parent's layers and the `deleted_at` of the layer-table tombstones whose `glif_id` is the parent's id, in the saved store, so it is no earlier than the save time. Only that stamp of the parent changes. Every other row, the relations and the tombstones are untouched. |
| FontExport.ExportWindow | robocjk/models.py:396-408 | The incremental window exists only outside a full export and when both export stamps exist. It is the earlier of the two. |
| FontExport.FontOf | robocjk/models.py:432-446 | A main row that hangs under a font belongs to that font. A layer belongs to its parent's font (`glif__font`), and to no font when the parent row is missing. Only rows whose owner matches their kind belong to a font. |
| FontExport.LayerFollowsParentFont | robocjk/models.py:435-446 | A layer and its parent always belong to the same font. |
| FontExport.GlifsToWrite | robocjk/models.py:428-446 | The rows a pass writes belong to the font and exist in the store. |
| FontExport.GlifsToWriteIff | robocjk/models.py:428-446 | With a window, a row is written exactly when it belongs to the font and has an `updated_at` later than the window. A row with no stamp or an older one is skipped. |
| FontExport.LaterWindowWritesLess | robocjk/models.py:404-408 | The window is the earlier of the two export stamps. A later window never writes more rows than an earlier one, so the earlier stamp never lets a pass miss a row the later one would write. |
| FontExport.SavedRowIsWritten | robocjk/models.py:428-446 | A row saved after the window is written by the next incremental pass. |
| FontExport.ZombieFiles | robocjk/models.py:409-415 | An incremental pass removes only existing files that tombstones newer than the window point to, and a full pass removes none. |
| FontExport.ZombieRemovalIgnoresFont | robocjk/models.py:409-415 | A tombstone of any font, deleted after the window, has its file removed: the query is not narrowed to this font. |
| FontExport.PlanPass | robocjk/models.py:350-430 | An unavailable font is skipped. A full export wipes the glif folders, removes no zombie files and writes every row of the font. An incremental pass uses the export window: it writes exactly the font's rows newer than the window and removes exactly the zombie files of tombstones newer than it. |
| FontExport.SaveToFileSystem | robocjk/models.py:519-541 | A full export never runs another pass, so at most one fallback full export happens. The error is raised only from a failing full pass, and exactly when the full pass fails and the export was full or its incremental pass failed. |
| FontExport.CleanupFileSystem | robocjk/models.py:604-629 | Cleanup removes only found files that no row expects, and every such file when something is expected. With nothing expected it removes nothing. It answers true exactly when it removed something. |
| FontExport.CleanupIsIdempotent | robocjk/models.py:604-629 | A second cleanup right after the first removes nothing. |
| FontExport.VerifyGlifsCount | robocjk/models.py:704-731 | A count passes exactly when nothing is expected, or the files found lie strictly within 50 of the expected count. |
| FontExport.VerifyGlifsCountBounds | robocjk/models.py:712-722 | An exact match passes. A surplus of 50 or more fails when something is expected. |
| FontExport.VerifyFileSystem | robocjk/models.py:733-772 | Verification raises exactly when some of the five counts fails. It reports exactly the failing groups, in order. |
| FontExport.UsersWindow | robocjk/models.py:774-793 | An explicit `since` wins. Then the first positive duration among minutes, hours and days counts back that many minutes, hours or days from now. Then the later export stamp is used, and otherwise the last hour. |
| FontExport.UsersWindowNotBeforeExportWindow | robocjk/models.py:790-792 | With no options the editors are counted from the later export stamp, never before the earlier stamp that the export window uses. |
| FontExport.MinutesWinOverHoursAndDays | robocjk/models.py:784-789 | A positive minutes option overrides hours and days. |
| FontExport.HoursWinOverDays | robocjk/models.py:784-789 | Without positive minutes, a positive hours option overrides days. |
| FontExport.UpdatedByUsers | robocjk/models.py:795-841 | The editors are the font's own last editor, whenever that edit was, plus the editor of every row of the font saved after the window, and nobody else. |
| FontExport.EarlierWindowNamesMore | robocjk/models.py:795-841 | An earlier window names every editor a later one names. |
| FontExport.CommitMessage | robocjk/models.py:315-327 | The message is "Updated NAME by: A, B." when the joined names are not empty, which is when there are two names or one non-empty name. Otherwise it is "Updated NAME.". |
| FontExport.CommitMessageShape | robocjk/models.py:315-327 | Every message starts with "Updated " and the font name and ends with a full stop. Only a message that names editors is longer than that. |
| Projects.SaveBy | robocjk/models.py:149-151 | The saving user becomes a designer, and nothing else of the project changes. |
| Projects.SaveByIdempotent | robocjk/models.py:149-151 | Saving again by a designer changes nothing, and designers are never removed. |
| Projects.RepoBranch | robocjk/models.py:158 | The branch is never empty: it is the project's branch, or "main" when that is empty. |
| Projects.DefaultBranchIsNotFallback | robocjk/models.py:125-129 | A new project follows its field default "master", not the "main" fallback. |
| Projects.StaleFontDirs | robocjk/models.py:189-191 | The stale folders are pulled folders that no font owns, and every pulled folder a font owns is kept. |
| Projects.StaleFontDirsLeaveFontDirs | robocjk/models.py:189-197 | After removal exactly the pulled folders of current fonts remain, and a second pass finds nothing stale. |
| Projects.CommandLine | robocjk/models.py:68-70 | The commands are joined with " && ". The line is empty only for no commands or one empty command. |
| Projects.ClassifyReturnCode | robocjk/models.py:81-101 | Status 0 succeeds and status 1 is swallowed. Every other status is raised again, with the repository hint exactly for 128. |
| Projects.OnlyStatusOneIsSwallowed | robocjk/models.py:86-101 | Of the failing statuses only 1 is swallowed, and 128 is raised with the hint. |

## Left out

- Files, git and processes are not modelled. This covers file writes, reads and directory listings through `fsutil`, the shell commands of `run_commands`, the git command sequences of `Project.save_to_file_system`, logging, the `multiprocessing` pool and the pagination of the export. Listings, counts and verification outcomes are inputs instead.
- The glif xml parser, `format_glif`, `unicodes_str_to_list`, the serializers and the path builders belong to modules that are not part of this model. The parser is a function parameter, and paths are plain strings.
- The custom managers (`CharacterGlyphManager` and the others) are not part of this model. Every row of a table is treated as visible to the queries.
- Django's `get_full_name` and the ordering of the editors by first and last name are left out. `FontExport.CommitMessage` takes the names already in order.
- Locking.LockedByAfterLock: the model is a sequential state machine over the current lock state. `lock_by` and `unlock_by` test the in-memory instance and then write with an unconditional `update`, so two stale instances can both lock the same record. That race is not modelled.
- FontExport.UsersWindow: the `minutes`, `hours` and `days` options are integers in the model. `dt.timedelta` also accepts fractional amounts.
- Locking.LockBy and Locking.UnlockBy: the `save` flag only chooses whether the in-memory change is also written with an `update` query, so it is left out.
- GlifDataModel.VariationChanges: variation values that are null (`None`) cannot occur in an `int` map. The `or 0` of the source matters only for them.
- GlifDataModel.Save: `super().save()` is modelled only as stamping `updated_at`. The abstract timestamp model that does the stamping is not part of this model.
- Where `_init_data` is first filled after a row is loaded is not modelled. The remembered payload is a field of the row, `None` for a fresh instance.
- Projects.SaveBy: `super().save_by(user)` belongs to an abstract model that is not part of this model, so only the designers are modelled.
- The `updated_by` columns of the glif rows are not part of the glif record. `FontExport.UpdatedByUsers` takes them as separate edit rows.
- `FontImport`, `Proof`, `GlyphsComposition.serialize`, the counting helpers (`num_*`), `path()` and `serialize()` are left out: they are plain data or presentation.
- The rest of `robocjk/admin.py` is left out as presentation. Only the bulk unlock action is modelled.
- The code has none of the following, so the model has none of them either:
  - lock expiry;
  - composition cycle detection and errors for dangling component names;
  - explicit status advance and downgrade operations;
  - the creation of `DeletedGlif` rows, which happens outside `robocjk/models.py`;
  - the editors audit trail;
  - any serialization of concurrent writes.

  The code stores a status index as its decimal string (`f"{status_index}"`), not as the name at that index. The model follows the code.

=== FILE: common.dfy ===
/** Small shared vocabulary: optional values (Python's `None`) and
    results that may carry a raised error. */
module Common {

  /** A value that may be absent, as a nullable field or a Python `None`. */
  datatype Option<+T> = None | Some(value: T)

  /** The outcome of a call that may raise: a value, or the raised error's message. */
  datatype Result<+T> = Ok(value: T) | Err(message: string)
}

=== FILE: export.dfy ===
/** The decisions a font export makes (`Font.save_to_file_system` and its
    helpers), with the file system, the database queries and the clock
    replaced by their answers: which window an incremental pass uses, which
    rows it writes and which zombie files it removes, how verification,
    cleanup and the fallback full export follow each other, which editors a
    commit names, and the commit message itself. */
module FontExport {

  import opened Common
  import Text
  import opened Glifs
  import GlifDataModel
  import Layers

  /** The export columns of a font row, with the id of its last editor. */
  datatype Font = Font(
    id: nat,
    name: string,
    available: bool,
    exportStartedAt: Option<int>,
    exportCompletedAt: Option<int>,
    updatedBy: Option<nat>)

  /** The incremental window: the earlier of the two stamps of the previous
      export, and only when both exist and the pass is not a full export. */
  function ExportWindow(f: Font, fullExport: bool): (w: Option<int>)
    ensures w.Some? <==> !fullExport && f.exportStartedAt.Some? && f.exportCompletedAt.Some?
    ensures w.Some? ==> w.value <= f.exportStartedAt.value && w.value <= f.exportCompletedAt.value
    ensures w.Some? ==> w.value == f.exportStartedAt.value || w.value == f.exportCompletedAt.value
  {
    if fullExport then None
    else if f.exportStartedAt.Some? && f.exportCompletedAt.Some? then
      var a, b := f.exportStartedAt.value, f.exportCompletedAt.value;
      Some(if a <= b then a else b)
    else None
  }

  /** The font a row belongs to: its own for the three main kinds, its
      parent's for a layer (`glif__font`); `None` when the parent row is missing. */
  function FontOf(store: Store, id: GlifId): (font: Option<nat>)
    requires id in store.glifs
    ensures !IsLayer(id.kind) && store.glifs[id].owner.FontOwner? ==>
      font == Some(store.glifs[id].owner.font)
    ensures IsLayer(id.kind) && store.glifs[id].owner.LayerOwner? ==>
      var pid := GlifId(Layers.ParentKind(id.kind), store.glifs[id].owner.glif);
      font == (if pid in store.glifs && store.glifs[pid].owner.FontOwner? then Some(store.glifs[pid].owner.font)
               else None)
    ensures font.Some? ==> WellOwned(id, store.glifs[id])
  {
    match store.glifs[id].owner
    case FontOwner(font) => if IsLayer(id.kind) then None else Some(font)
    case LayerOwner(parent, _) =>
      if IsLayer(id.kind) then
        var pid := GlifId(Layers.ParentKind(id.kind), parent);
        if pid in store.glifs && store.glifs[pid].owner.FontOwner? then Some(store.glifs[pid].owner.font)
        else None
      else None
  }

  /** `updated_at__gt`: the row was written after the window; a row with no
      stamp is never after anything, and without a window every row passes. */
  predicate WrittenAfter(g: Glif, window: Option<int>) {
    window.None? || (g.updatedAt.Some? && g.updatedAt.value > window.value)
  }

  /** The rows of the five tables one pass writes to files: the font's rows,
      narrowed to those written after the window when there is one. */
  function GlifsToWrite(store: Store, font: nat, window: Option<int>): (ids: set<GlifId>)
    ensures ids <= store.glifs.Keys
    ensures forall id :: id in ids ==> FontOf(store, id) == Some(font)
  {
    set id | id in store.glifs && FontOf(store, id) == Some(font) && WrittenAfter(store.glifs[id], window)
  }

  /** A layer belongs to the font of its parent: whenever both rows are in
      the store and the parent hangs under a font, they answer alike. */
  lemma LayerFollowsParentFont(store: Store, id: GlifId)
    requires id in store.glifs && IsLayer(id.kind) && store.glifs[id].owner.LayerOwner?
    requires var pid := GlifId(Layers.ParentKind(id.kind), store.glifs[id].owner.glif);
      pid in store.glifs && store.glifs[pid].owner.FontOwner?
    ensures FontOf(store, id) == FontOf(store, GlifId(Layers.ParentKind(id.kind), store.glifs[id].owner.glif))
  {
  }

  /** The incremental filter, both ways: with a window, a row is written
      exactly when it belongs to the font and carries an `updated_at` later
      than the window; a row with no stamp or an older one is skipped. */
  lemma GlifsToWriteIff(store: Store, font: nat, w: int, id: GlifId)
    ensures id in GlifsToWrite(store, font, Some(w)) <==>
      && id in store.glifs
      && FontOf(store, id) == Some(font)
      && store.glifs[id].updatedAt.Some?
      && store.glifs[id].updatedAt.value > w
  {
  }

  /** Without a window a pass writes every row of the font, and a window only
      ever narrows that set. */
  lemma WindowNarrowsWrites(store: Store, font: nat, window: Option<int>)
    ensures forall id :: id in store.glifs && FontOf(store, id) == Some(font) ==>
      id in GlifsToWrite(store, font, None)
    ensures GlifsToWrite(store, font, window) <= GlifsToWrite(store, font, None)
  {
  }

  /** A later window writes no more rows than an earlier one. */
  lemma LaterWindowWritesLess(store: Store, font: nat, w1: int, w2: int)
    requires w1 <= w2
    ensures GlifsToWrite(store, font, Some(w2)) <= GlifsToWrite(store, font, Some(w1))
  {
  }

  /** A row saved after the window is written by the next incremental pass:
      the save stamps it with the time of the save and keeps its owner. */
  lemma {:induction false} SavedRowIsWritten(store: Store, id: GlifId, parse: string -> Option<GlifData>,
                                             now: int, font: nat, window: int)
    requires id in store.glifs && WellOwned(id, store.glifs[id])
    requires FontOf(store, id) == Some(font) && window < now
    ensures id in GlifsToWrite(GlifDataModel.Save(store, id, parse, now).store, font, Some(window))
  {
    var s := GlifDataModel.Save(store, id, parse, now).store;
    var row := GlifDataModel.SaveRow(id.kind, store.glifs[id], parse, now);
    assert s.glifs == store.glifs[id := row.glif];
    assert s.glifs[id].owner == store.glifs[id].owner;
    if IsLayer(id.kind) {
      var pid := GlifId(Layers.ParentKind(id.kind), store.glifs[id].owner.glif);
      assert pid != id;
    }
    assert FontOf(s, id) == Some(font);
    assert WrittenAfter(s.glifs[id], Some(window));
  }

  /** The files of deleted glifs an incremental pass removes: the path of every
      tombstone newer than the window that is still a file. The tombstones
      are not narrowed to this font. */
  function ZombieFiles(tombstones: seq<Tombstone>, window: Option<int>, isFile: set<string>): (removed: set<string>)
    ensures window.None? ==> removed == {}
    ensures removed <= isFile
    ensures forall p :: p in removed ==>
      exists i :: 0 <= i < |tombstones| && tombstones[i].filepath == p && tombstones[i].deletedAt > window.value
  {
    if window.None? then {}
    else set i | 0 <= i < |tombstones| && tombstones[i].deletedAt > window.value && tombstones[i].filepath in isFile
      :: tombstones[i].filepath
  }

  /** The zombie removal does not look at the tombstone's font: a file that a
      glif of any font left behind is removed if it was deleted after the window. */
  lemma ZombieRemovalIgnoresFont(tombstones: seq<Tombstone>, window: int, isFile: set<string>, i: nat)
    requires i < |tombstones| && tombstones[i].deletedAt > window && tombstones[i].filepath in isFile
    ensures tombstones[i].filepath in ZombieFiles(tombstones, Some(window), isFile)
  {
  }

  /** What one pass does before verifying: nothing for a font that is not
      available; otherwise whether it wipes the three glif directories, its
      window, the zombie files it removes and the rows it writes. */
  datatype Plan =
    | Skipped
    | Planned(wipeGlifDirs: bool, window: Option<int>, zombies: set<string>, toWrite: set<GlifId>)

  /** The planning part of `save_to_file_system`. A full export wipes the
      glif directories and writes every row of the font; an incremental one
      removes zombie files and writes only the rows newer than its window. */
  function PlanPass(f: Font, fullExport: bool, store: Store, isFile: set<string>): (p: Plan)
    ensures p.Skipped? <==> !f.available
    ensures p.Planned? ==> p.wipeGlifDirs == fullExport && p.window == ExportWindow(f, fullExport)
    ensures p.Planned? && fullExport ==> p.zombies == {} && p.toWrite == GlifsToWrite(store, f.id, None)
    ensures p.Planned? ==> p.zombies <= isFile && p.toWrite <= GlifsToWrite(store, f.id, None)
    ensures p.Planned? ==>
      p.toWrite == GlifsToWrite(store, f.id, p.window) && p.zombies == ZombieFiles(store.tombstones, p.window, isFile)
  {
    if !f.available then Skipped
    else
      var window := ExportWindow(f, fullExport);
      WindowNarrowsWrites(store, f.id, window);
      Planned(fullExport, window, ZombieFiles(store.tombstones, window, isFile),
              GlifsToWrite(store, f.id, window))
  }

  /** What the checks after one pass find: whether the first verification
      passed, whether the cleanup removed something, and whether the second
      verification passed. The checks of a full and of an incremental pass
      are given separately. */
  datatype Checks = Checks(verified: bool, cleaned: bool, reverified: bool)

  /** A pass fails when its verification fails and the cleanup either removed
      nothing or was followed by a verification that failed again. */
  predicate Fails(c: Checks) {
    !c.verified && (!c.cleaned || !c.reverified)
  }

  /** A whole export: the `full_export` flag of every pass that ran, in order,
      and whether it ended by raising the verification error. */
  datatype Run = Run(passes: seq<bool>, raised: bool)

  /** The control of `save_to_file_system`: skip an unavailable font, verify,
      clean up and verify again; a failing incremental pass falls back to a
      full export and a failing full pass raises. A full export never calls
      itself, so at most one fallback happens and only a full pass raises. */
  function SaveToFileSystem(f: Font, fullExport: bool, checks: bool -> Checks): (r: Run)
    decreases if fullExport then 0 else 1
    ensures r.passes == [] <==> !f.available
    ensures |r.passes| <= 2
    ensures fullExport ==> |r.passes| <= 1
    ensures r.passes != [] ==> r.passes[0] == fullExport
    ensures |r.passes| == 2 ==> r.passes == [false, true] && Fails(checks(false))
    ensures r.raised ==> r.passes != [] && r.passes[|r.passes| - 1] && Fails(checks(true))
    ensures r.raised <==> f.available && Fails(checks(true)) && (fullExport || Fails(checks(false)))
  {
    if !f.available then Run([], false)
    else if !Fails(checks(fullExport)) then Run([fullExport], false)
    else if fullExport then Run([true], true)
    else
      var rest := SaveToFileSystem(f, true, checks);
      Run([false] + rest.passes, rest.raised)
  }

  /** What `cleanup_file_system` does: the files it removes, and its answer. */
  datatype Cleanup = Cleanup(removed: set<string>, cleaned: bool)

  /** `cleanup_file_system` over the `.glif` files found under the font and
      the paths its rows expect. With nothing expected it removes nothing;
      otherwise every file found that no row expects goes, and only those.
      The answer says whether anything went. */
  function CleanupFileSystem(found: set<string>, expected: set<string>): (c: Cleanup)
    ensures c.removed <= found && c.removed !! expected
    ensures expected == {} ==> c == Cleanup({}, false)
    ensures expected != {} ==> found - c.removed <= expected
    ensures c.cleaned <==> c.removed != {}
  {
    if expected == {} then Cleanup({}, false)
    else
      var zombies := found - expected;
      Cleanup(zombies, zombies != {})
  }

  /** A second cleanup right after the first finds nothing more to remove. */
  lemma CleanupIsIdempotent(found: set<string>, expected: set<string>)
    ensures var c := CleanupFileSystem(found, expected);
      CleanupFileSystem(found - c.removed, expected) == Cleanup({}, false)
  {
    var c := CleanupFileSystem(found, expected);
    if expected != {} {
      assert (found - c.removed) - expected == {};
    }
  }

  /** The tolerance of the file count check. */
  const DeltaTolerance := 50

  /** `verify_glifs_count`: the files found match the expected count up to the
      tolerance, and any count of files passes when none is expected. */
  function VerifyGlifsCount(filesCount: nat, expectedCount: nat): (ok: bool)
    ensures ok <==>
      (expectedCount == 0 || expectedCount - DeltaTolerance < filesCount < expectedCount + DeltaTolerance)
  {
    var delta := if expectedCount >= filesCount then expectedCount - filesCount else filesCount - expectedCount;
    filesCount == expectedCount || delta < DeltaTolerance || expectedCount == 0
  }

  /** An exact match always passes, and a difference of the tolerance or more
      fails whenever something was expected. */
  lemma VerifyGlifsCountBounds(filesCount: nat, expectedCount: nat)
    ensures VerifyGlifsCount(expectedCount, expectedCount)
    ensures expectedCount > 0 && filesCount >= expectedCount + DeltaTolerance ==>
      !VerifyGlifsCount(filesCount, expectedCount)
  {
  }

  /** The five `.glif` groups `verify_file_system` counts, in its order. */
  const CountNames: seq<string> := [
    "character glyphs",
    "character glyphs layers",
    "deep components",
    "atomic elements",
    "atomic elements layers"
  ]

  /** The files found and the rows expected for one group. */
  datatype Count = Count(files: nat, expected: nat)

  /** `verify_file_system` over the five counts: the positions of the groups
      whose check fails, in order, and whether it raises, which it does
      exactly when some group fails. */
  method VerifyFileSystem(counts: seq<Count>) returns (raised: bool, failed: seq<nat>)
    requires |counts| == |CountNames|
    ensures raised <==> exists i :: 0 <= i < |counts| && !VerifyGlifsCount(counts[i].files, counts[i].expected)
    ensures raised <==> failed != []
    ensures forall k :: 0 <= k < |failed| ==>
      failed[k] < |counts| && !VerifyGlifsCount(counts[failed[k]].files, counts[failed[k]].expected)
    ensures forall i :: 0 <= i < |counts| && !VerifyGlifsCount(counts[i].files, counts[i].expected) ==> i in failed
    ensures forall k, l :: 0 <= k < l < |failed| ==> failed[k] < failed[l]
  {
    failed := [];
    var i := 0;
    while i < |counts|
      invariant 0 <= i <= |counts|
      invariant forall k :: 0 <= k < |failed| ==>
        failed[k] < i && !VerifyGlifsCount(counts[failed[k]].files, counts[failed[k]].expected)
      invariant forall j :: 0 <= j < i && !VerifyGlifsCount(counts[j].files, counts[j].expected) ==> j in failed
      invariant forall k, l :: 0 <= k < l < |failed| ==> failed[k] < failed[l]
    {
      if !VerifyGlifsCount(counts[i].files, counts[i].expected) {
        failed := failed + [i];
      }
      i := i + 1;
    }
    raised := failed != [];
    if raised {
      assert !VerifyGlifsCount(counts[failed[0]].files, counts[failed[0]].expected);
    }
  }

  /** The time range options of `updated_by_users`; durations are counted in
      the units their names give. */
  datatype UsersOptions = UsersOptions(since: Option<int>, minutes: Option<int>, hours: Option<int>, days: Option<int>)

  /** A duration option that was given and is positive. */
  predicate Positive(d: Option<int>) {
    d.Some? && d.value > 0
  }

  /** The window of `updated_by_users`, in seconds: an explicit `since` wins;
      then the first positive duration among minutes, hours and days counted
      back from now; then the later of the two stamps of the previous export;
      and otherwise the last hour. */
  function UsersWindow(f: Font, o: UsersOptions, now: int): (w: int)
    ensures o.since.Some? ==> w == o.since.value
    ensures o.since.None? && (Positive(o.minutes) || Positive(o.hours) || Positive(o.days)) ==> w < now
    ensures o.since.None? && Positive(o.minutes) ==> w == now - o.minutes.value * 60
    ensures o.since.None? && !Positive(o.minutes) && Positive(o.hours) ==> w == now - o.hours.value * 3600
    ensures o.since.None? && !Positive(o.minutes) && !Positive(o.hours) && Positive(o.days) ==>
      w == now - o.days.value * 86400
    ensures o.since.None? && !Positive(o.minutes) && !Positive(o.hours) && !Positive(o.days) ==>
      if f.exportStartedAt.Some? && f.exportCompletedAt.Some? then
        w >= f.exportStartedAt.value && w >= f.exportCompletedAt.value &&
        (w == f.exportStartedAt.value || w == f.exportCompletedAt.value)
      else w == now - 3600
  {
    if o.since.Some? then o.since.value
    else if Positive(o.minutes) then now - o.minutes.value * 60
    else if Positive(o.hours) then now - o.hours.value * 3600
    else if Positive(o.days) then now - o.days.value * 86400
    else if f.exportStartedAt.Some? && f.exportCompletedAt.Some? then
      var a, b := f.exportStartedAt.value, f.exportCompletedAt.value;
      if a >= b then a else b
    else now - 3600
  }

  /** The editors' window and the export window disagree: with no options the
      editors are counted from the later stamp of the previous export, while
      the next incremental pass writes everything newer than the earlier one. */
  lemma UsersWindowNotBeforeExportWindow(f: Font, now: int)
    requires f.exportStartedAt.Some? && f.exportCompletedAt.Some?
    ensures UsersWindow(f, UsersOptions(None, None, None, None), now) >= ExportWindow(f, false).value
  {
  }

  /** The minutes option wins over the hours and days options. */
  lemma MinutesWinOverHoursAndDays(f: Font, m: int, h: Option<int>, d: Option<int>, now: int)
    requires m > 0
    ensures UsersWindow(f, UsersOptions(None, Some(m), h, d), now) == now - 60 * m
  {
  }

  /** The hours option wins over the days option when no positive minutes are given. */
  lemma HoursWinOverDays(f: Font, m: Option<int>, h: int, d: Option<int>, now: int)
    requires !Positive(m) && h > 0
    ensures UsersWindow(f, UsersOptions(None, m, Some(h), d), now) == now - 3600 * h
  {
  }

  /** A row that records who last saved it: the font it belongs to (a layer's
      is its parent's), its `updated_by` and its `updated_at`. The rows of the
      glyphs composition and of the five glif tables all count. */
  datatype Edit = Edit(font: nat, updatedBy: Option<nat>, updatedAt: Option<int>)

  /** An edit of font `font` by some user after `window`. */
  predicate EditedAfter(e: Edit, font: nat, window: int) {
    e.font == font && e.updatedBy.Some? && e.updatedAt.Some? && e.updatedAt.value > window
  }

  /** `updated_by_users`: the font's own last editor, whenever it was, and the
      editor of every row of the font saved after the window. */
  function UpdatedByUsers(f: Font, edits: seq<Edit>, window: int): (users: set<nat>)
    ensures f.updatedBy.Some? ==> f.updatedBy.value in users
    ensures forall i :: 0 <= i < |edits| && EditedAfter(edits[i], f.id, window) ==>
      edits[i].updatedBy.value in users
    ensures forall u :: u in users ==>
      Some(u) == f.updatedBy ||
      exists i :: 0 <= i < |edits| && EditedAfter(edits[i], f.id, window) && edits[i].updatedBy == Some(u)
  {
    var fromRows := set i | 0 <= i < |edits| && EditedAfter(edits[i], f.id, window) :: edits[i].updatedBy.value;
    if f.updatedBy.Some? then {f.updatedBy.value} + fromRows else fromRows
  }

  /** An earlier window names every editor a later one names. */
  lemma EarlierWindowNamesMore(f: Font, edits: seq<Edit>, w1: int, w2: int)
    requires w1 <= w2
    ensures UpdatedByUsers(f, edits, w2) <= UpdatedByUsers(f, edits, w1)
  {
  }

  /** The editors named in a commit: there are some when the names joined with
      ", " are not empty, which is when there are two names or one that is
      not empty. */
  predicate NamesEditors(names: seq<string>) {
    |names| >= 2 || (|names| == 1 && names[0] != "")
  }

  /** `get_commit_message` over the editors' full names in their order. */
  function CommitMessage(fontName: string, names: seq<string>): (m: string)
    ensures NamesEditors(names) ==> m == "Updated " + fontName + " by: " + Text.Join(names, ", ") + "."
    ensures !NamesEditors(names) ==> m == "Updated " + fontName + "."
  {
    Text.JoinEmptyIff(names, ", ");
    var users := Text.Join(names, ", ");
    var message := "Updated " + fontName;
    if users != "" then message + " by: " + users + "." else message + "."
  }

  /** Every commit message starts with "Updated " and the font name and ends
      with a full stop, and only a message that names editors has "by: ". */
  lemma CommitMessageShape(fontName: string, names: seq<string>)
    ensures var m, head := CommitMessage(fontName, names), "Updated " + fontName;
      && |m| > |head| && m[..|head|] == head && m[|m| - 1] == '.'
      && (NamesEditors(names) <==> |m| > |head| + 1)
  {
  }
}

=== FILE: glifdata.dfy ===
/** The per-record save logic of every glif (`GlifDataModel`): capture the
    initial payload, parse it, copy the parsed fields into the row's cache,
    derive the status and the downgrade flag, stamp the row, and relink the
    component relations by name. */
module GlifDataModel {

  import opened Common
  import Status
  import opened Glifs

  /** Python truthiness of an optional string: present and non-empty. */
  predicate Truthy(s: Option<string>) {
    s.Some? && s.value != ""
  }

  /** `_update_init_data`: remember the current payload unless one is already remembered. */
  function UpdateInitData(g: Glif): (r: Glif)
    ensures Truthy(g.initData) ==> r == g
    ensures !Truthy(g.initData) ==> r == g.(initData := Some(g.cache.xmlString))
    ensures Truthy(r.initData) || r.initData == Some(g.cache.xmlString)
  {
    if Truthy(g.initData) then g else g.(initData := Some(g.cache.xmlString))
  }

  /** `_parse_data`: an empty payload is not parsed; otherwise whatever the
      parser makes of it, `None` standing for a parse error. */
  function ParseData(data: string, parse: string -> Option<GlifData>): (r: Option<GlifData>)
    ensures data == "" ==> r.None?
    ensures data != "" ==> r == parse(data)
  {
    if data == "" then None else parse(data)
  }

  /** Two rows agree on everything except the cache and the remembered payload. */
  predicate SameBesidesCache(a: Glif, b: Glif) {
    && a.owner == b.owner
    && a.deleted == b.deleted
    && a.st == b.st
    && a.lock == b.lock
    && a.updatedAt == b.updatedAt
    && a.layersUpdatedAt == b.layersUpdatedAt
  }

  /** The row after `_apply_data`, and whether its old file was asked to be removed. */
  datatype Applied = Applied(glif: Glif, removeOldFile: bool)

  /** `_apply_data`. A failed parse changes nothing. Otherwise the cached fields
      are overwritten from the parsed payload, and the old file is removed
      exactly when the row had a filename and the payload names another. */
  function ApplyData(g: Glif, parsed: Option<GlifData>): (r: Applied)
    ensures parsed.None? ==> r == Applied(g, false)
    ensures parsed.Some? ==> r.glif.cache == parsed.value.fields
    ensures parsed.Some? ==> SameBesidesCache(g, r.glif)
    ensures parsed.Some? ==> r.glif.initData == UpdateInitData(g).initData
    ensures parsed.Some? ==>
      (r.removeOldFile <==> g.cache.filename != "" && g.cache.filename != parsed.value.fields.filename)
  {
    if parsed.None? then Applied(g, false)
    else
      var p := parsed.value.fields;
      var g1 := UpdateInitData(g);
      var remove := p.filename != g1.cache.filename && g1.cache.filename != "";
      Applied(g1.(cache := p), remove)
  }

  /** Applying the same parsed payload a second time changes nothing more and
      asks for no further file removal. */
  lemma ApplyDataIdempotent(g: Glif, parsed: Option<GlifData>)
    requires parsed.Some? ==> Truthy(g.initData) || g.cache.xmlString != ""
    ensures ApplyData(ApplyData(g, parsed).glif, parsed) == Applied(ApplyData(g, parsed).glif, false)
  {
  }

  /** The same for the payload `_parse_data` makes of the row's own data:
      there the condition above always holds, so applying it twice is
      applying it once. */
  lemma ApplyDataIdempotentOnOwnPayload(g: Glif, parse: string -> Option<GlifData>)
    ensures var parsed := ParseData(g.cache.xmlString, parse);
      ApplyData(ApplyData(g, parsed).glif, parsed) == Applied(ApplyData(g, parsed).glif, false)
  {
    ApplyDataIdempotent(g, ParseData(g.cache.xmlString, parse));
  }

  /** A variation's earlier status value; a missing key counts as 0. */
  function EarlierValue(before: map<string, int>, key: string): int {
    if key in before then before[key] else 0
  }

  /** The per-variation status changes a save found. */
  datatype Changes = Changes(downgraded: bool, upgraded: bool)

  /** The scan of `status_with_variations` in `_update_status`, run only when the
      earlier and current maps differ. A variation whose earlier value was 4 (done) and is
      now below 4 is a downgrade; one below 4 that is now 4 is an upgrade.
      Only keys of the current map are looked at. */
  function VariationChanges(before: map<string, int>, after: map<string, int>): (c: Changes)
    ensures c.downgraded <==> exists k :: k in after && EarlierValue(before, k) == 4 && after[k] < 4
    ensures c.upgraded <==> exists k :: k in after && EarlierValue(before, k) < 4 && after[k] == 4
  {
    if before == after then
      assert forall k :: k in after ==> EarlierValue(before, k) == after[k];
      Changes(false, false)
    else
      Changes(
        exists k | k in after :: EarlierValue(before, k) == 4 && after[k] < 4,
        exists k | k in after :: EarlierValue(before, k) < 4 && after[k] == 4)
  }

  /** Only the earlier values of keys present in the current map matter: two earlier maps
      that agree there give the same changes. */
  lemma OnlyNewKeysMatter(before1: map<string, int>, before2: map<string, int>, after: map<string, int>)
    requires forall k :: k in after ==> EarlierValue(before1, k) == EarlierValue(before2, k)
    ensures VariationChanges(before1, after) == VariationChanges(before2, after)
  {
  }

  /** The flag update of `_update_status`. A downgrade raises the flag, stamping
      the time only when it was not already raised; otherwise an upgrade clears
      a raised flag and its time; the status columns themselves are untouched. */
  function ApplyChanges(st: StatusFields, c: Changes, now: int): (r: StatusFields)
    ensures r.status == st.status && r.previousStatus == st.previousStatus
    ensures r.statusChangedAt == st.statusChangedAt
    ensures c.downgraded ==> r.downgraded
    ensures c.downgraded ==> r.downgradedAt == (if st.downgraded then st.downgradedAt else Some(now))
    ensures !c.downgraded && c.upgraded ==> !r.downgraded
    ensures !c.downgraded && c.upgraded && st.downgraded ==> r.downgradedAt.None?
    ensures !c.downgraded && c.upgraded && !st.downgraded ==> r == st
    ensures !c.downgraded && !c.upgraded ==> r == st
  {
    if c.downgraded then
      if !st.downgraded then st.(downgraded := true, downgradedAt := Some(now)) else st
    else if c.upgraded then
      if st.downgraded then st.(downgraded := false, downgradedAt := None) else st
    else st
  }

  /** When one save both downgrades a variation and brings another to done,
      the downgrade wins. */
  lemma DowngradeWinsOverUpgrade(st: StatusFields, before: map<string, int>, after: map<string, int>,
                                 down: string, up: string, now: int)
    requires down in after && EarlierValue(before, down) == 4 && after[down] < 4
    requires up in after && EarlierValue(before, up) < 4 && after[up] == 4
    ensures VariationChanges(before, after) == Changes(true, true)
    ensures ApplyChanges(st, VariationChanges(before, after), now).downgraded
  {
  }

  /** The downgrade flag follows variation values, not `status` against
      `previous_status`: a save whose variations keep their values leaves the
      flag and its time alone. */
  lemma UnchangedVariationsKeepFlag(st: StatusFields, vars: map<string, int>, now: int)
    ensures ApplyChanges(st, VariationChanges(vars, vars), now) == st
  {
  }

  /** The status columns after a payload change: `previous_status`, `status`
      and `status_changed_at` move together only when the derived status differs. */
  function ApplyDerivedStatus(st: StatusFields, derived: string, now: int): (r: StatusFields)
    ensures r.status == derived
    ensures r.downgraded == st.downgraded && r.downgradedAt == st.downgradedAt
    ensures st.status != derived ==>
      r.previousStatus == st.status && r.statusChangedAt == Some(now)
    ensures st.status == derived ==> r == st
  {
    if st.status != derived then
      st.(previousStatus := st.status, status := derived, statusChangedAt := Some(now))
    else st
  }

  /** `_update_status`. Nothing happens after a failed parse, on a layer, or when
      the payload equals the remembered one. A row with no remembered payload
      (a fresh instance) only remembers the current one, which then equals it,
      so its status and flag stay. Otherwise, if an earlier payload
      was remembered and parses, its per-variation statuses drive the
      downgrade flag; the current payload becomes the remembered one; and the
      status is re-derived from the parsed payload. */
  function UpdateStatus(kind: GlifKind, g: Glif, parsed: Option<GlifData>,
                        parse: string -> Option<GlifData>, now: int): (r: Glif)
    ensures r == g.(st := r.st, initData := r.initData)
    ensures parsed.None? || IsLayer(kind) ==> r == g
    ensures g.initData == Some(g.cache.xmlString) ==> r == g
    ensures parsed.Some? && !IsLayer(kind) && !Truthy(g.initData) ==>
      r == g.(initData := Some(g.cache.xmlString))
    ensures parsed.Some? && !IsLayer(kind) && UpdateInitData(g).initData != Some(g.cache.xmlString) ==>
      && r.initData == Some(g.cache.xmlString)
      && r.st.status == Status.GetStatusFromData(parsed.value.status, parsed.value.statusColor)
      && (r.st.status != g.st.status ==>
            r.st.previousStatus == g.st.status && r.st.statusChangedAt == Some(now))
      && (r.st.status == g.st.status ==>
            r.st.previousStatus == g.st.previousStatus && r.st.statusChangedAt == g.st.statusChangedAt)
  {
    if parsed.None? || IsLayer(kind) then g
    else
      var g1 := UpdateInitData(g);
      if g1.initData == Some(g1.cache.xmlString) then g1
      else
        var earlier := if Truthy(g1.initData) then ParseData(g1.initData.value, parse) else None;
        var st1 :=
          if earlier.Some? then
            ApplyChanges(g1.st, VariationChanges(earlier.value.statusWithVariations,
                                                 parsed.value.statusWithVariations), now)
          else g1.st;
        var derived := Status.GetStatusFromData(parsed.value.status, parsed.value.statusColor);
        g1.(initData := Some(g1.cache.xmlString), st := ApplyDerivedStatus(st1, derived, now))
  }

  /** The downgrade part of `_update_status`: on a status-bearing row whose
      remembered payload parses and differs from the current one, a variation
      going from done to below done raises the flag. */
  lemma UpdateStatusRaisesDowngrade(kind: GlifKind, g: Glif, p: GlifData, e: GlifData,
                                    parse: string -> Option<GlifData>, now: int, key: string)
    requires !IsLayer(kind) && Truthy(g.initData) && g.initData != Some(g.cache.xmlString)
    requires parse(g.initData.value) == Some(e)
    requires key in p.statusWithVariations
    requires EarlierValue(e.statusWithVariations, key) == 4 && p.statusWithVariations[key] < 4
    ensures UpdateStatus(kind, g, Some(p), parse, now).st.downgraded
    ensures UpdateStatus(kind, g, Some(p), parse, now).st.downgradedAt ==
      (if g.st.downgraded then g.st.downgradedAt else Some(now))
  {
    var c := VariationChanges(e.statusWithVariations, p.statusWithVariations);
    assert c.downgraded;
  }

  /** The upgrade part of `_update_status`: when no variation leaves done and
      some variation reaches done, a raised flag is cleared together with its
      time, and a flag that was not raised stays as it was. */
  lemma UpdateStatusClearsOnUpgrade(kind: GlifKind, g: Glif, p: GlifData, e: GlifData,
                                    parse: string -> Option<GlifData>, now: int, key: string)
    requires !IsLayer(kind) && Truthy(g.initData) && g.initData != Some(g.cache.xmlString)
    requires parse(g.initData.value) == Some(e)
    requires key in p.statusWithVariations
    requires EarlierValue(e.statusWithVariations, key) < 4 && p.statusWithVariations[key] == 4
    requires forall k :: k in p.statusWithVariations ==>
      !(EarlierValue(e.statusWithVariations, k) == 4 && p.statusWithVariations[k] < 4)
    ensures var r := UpdateStatus(kind, g, Some(p), parse, now);
      && !r.st.downgraded
      && r.st.downgradedAt == (if g.st.downgraded then None else g.st.downgradedAt)
  {
    var c := VariationChanges(e.statusWithVariations, p.statusWithVariations);
    assert c.upgraded && !c.downgraded;
  }

  /** An earlier payload that no longer parses gives no variations to compare:
      the downgrade flag and its time stay as they were, whatever the new
      payload holds. */
  lemma UpdateStatusKeepsFlagWhenEarlierUnparsable(kind: GlifKind, g: Glif, p: GlifData,
                                                   parse: string -> Option<GlifData>, now: int)
    requires Truthy(g.initData) && parse(g.initData.value).None?
    ensures var r := UpdateStatus(kind, g, Some(p), parse, now);
      r.st.downgraded == g.st.downgraded && r.st.downgradedAt == g.st.downgradedAt
  {
    assert UpdateInitData(g) == g;
  }

  /** When the earlier payload parses and no variation leaves or reaches done,
      `_update_status` neither raises nor clears the flag: the flag and its
      time stay as they were. */
  lemma UpdateStatusKeepsFlagWithoutCrossing(kind: GlifKind, g: Glif, p: GlifData, e: GlifData,
                                             parse: string -> Option<GlifData>, now: int)
    requires !IsLayer(kind) && Truthy(g.initData) && g.initData != Some(g.cache.xmlString)
    requires parse(g.initData.value) == Some(e)
    requires forall k :: k in p.statusWithVariations ==>
      && !(EarlierValue(e.statusWithVariations, k) == 4 && p.statusWithVariations[k] < 4)
      && !(EarlierValue(e.statusWithVariations, k) < 4 && p.statusWithVariations[k] == 4)
    ensures var r := UpdateStatus(kind, g, Some(p), parse, now);
      r.st.downgraded == g.st.downgraded && r.st.downgradedAt == g.st.downgradedAt
  {
    var c := VariationChanges(e.statusWithVariations, p.statusWithVariations);
    assert !c.downgraded && !c.upgraded;
  }

  /** `get_components_managers` resolution of one relation: the rows of table
      `k` in font `font` whose name is listed. Deleted rows are not excluded. */
  function Resolve(glifs: map<GlifId, Glif>, font: nat, k: GlifKind, names: seq<string>): set<GlifId> {
    set j | j in glifs && j.kind == k && glifs[j].owner == FontOwner(font) && glifs[j].cache.name in names
  }

  /** Replace the relation of `id` towards each table in `targets` by its resolution. */
  function Relink(links: map<(GlifId, GlifKind), set<GlifId>>, glifs: map<GlifId, Glif>,
                  id: GlifId, font: nat, names: seq<string>, targets: seq<GlifKind>)
    : (r: map<(GlifId, GlifKind), set<GlifId>>)
    ensures forall k :: k in targets ==> (id, k) in r && r[(id, k)] == Resolve(glifs, font, k, names)
    ensures forall key :: key in links && !(key.0 == id && key.1 in targets) ==>
      key in r && r[key] == links[key]
    ensures forall key :: key in r ==> key in links || (key.0 == id && key.1 in targets)
    decreases |targets|
  {
    if |targets| == 0 then links
    else
      var k := targets[0];
      Relink(links[(id, k) := Resolve(glifs, font, k, names)], glifs, id, font, names, targets[1..])
  }

  /** The store after `_update_components`, and the boolean it returned. */
  datatype Linked = Linked(changed: bool, store: Store)

  /** `_update_components`. A row without components, or of a table with no
      component relations, answers false and leaves the relations alone.
      Otherwise every relation of the row becomes exactly the same-font rows
      of its target table whose names are listed in `components`, and the
      answer is true. */
  function UpdateComponents(store: Store, id: GlifId): (r: Linked)
    requires id in store.glifs && WellOwned(id, store.glifs[id])
    ensures r.store.glifs == store.glifs && r.store.tombstones == store.tombstones
    ensures r.changed <==> store.glifs[id].cache.hasComponents && ComponentTargets(id.kind) != []
    ensures !r.changed ==> r.store == store
    ensures r.changed ==> forall k, j :: k in ComponentTargets(id.kind) ==>
      (id, k) in r.store.links &&
      (j in r.store.links[(id, k)] <==>
        && j in store.glifs && j.kind == k
        && store.glifs[j].owner == store.glifs[id].owner
        && store.glifs[j].cache.name in ComponentsNames(store.glifs[id].cache.componentsStr))
    ensures forall key :: key in store.links && !(key.0 == id && key.1 in ComponentTargets(id.kind)) ==>
      key in r.store.links && r.store.links[key] == store.links[key]
    ensures forall key :: key in r.store.links ==>
      key in store.links || (key.0 == id && key.1 in ComponentTargets(id.kind))
  {
    var g := store.glifs[id];
    var targets := ComponentTargets(id.kind);
    if !g.cache.hasComponents || targets == [] then Linked(false, store)
    else
      var names := ComponentsNames(g.cache.componentsStr);
      Linked(true, store.(links := Relink(store.links, store.glifs, id, g.owner.font, names, targets)))
  }

  /** No cycle check: a character glyph that lists its own name links to itself. */
  lemma SelfLinkIsAccepted(id: GlifId, g: Glif)
    requires id.kind == CharacterGlyph && g.owner.FontOwner?
    requires g.cache.hasComponents && g.cache.name != "" && g.cache.componentsStr == g.cache.name && Text.CommaFree(g.cache.name)
    ensures var r := UpdateComponents(Store(map[id := g], map[], []), id);
      r.changed && id in r.store.links[(id, CharacterGlyph)]
  {
    Text.SplitCommaFree(g.cache.name);
  }

  /** Names that match no row are dropped without error: a row listing only
      unknown names still answers true and ends with empty relations. */
  lemma UnknownNamesAreDropped(store: Store, id: GlifId)
    requires id in store.glifs && WellOwned(id, store.glifs[id])
    requires store.glifs[id].cache.hasComponents && ComponentTargets(id.kind) != []
    requires forall j :: j in store.glifs ==> store.glifs[j].cache.name !in ComponentsNames(store.glifs[id].cache.componentsStr)
    ensures UpdateComponents(store, id).changed
    ensures forall k :: k in ComponentTargets(id.kind) ==> UpdateComponents(store, id).store.links[(id, k)] == {}
  {
  }

  /** The row part of `save`: remember the payload, parse it, apply it,
      update the status, and stamp `updated_at` as the write does. The
      answer carries whether the old file was asked to be removed. */
  function SaveRow(kind: GlifKind, g: Glif, parse: string -> Option<GlifData>, now: int): (r: Applied)
    ensures r.glif.owner == g.owner && r.glif.lock == g.lock && r.glif.deleted == g.deleted
    ensures r.glif.layersUpdatedAt == g.layersUpdatedAt
    ensures r.glif.updatedAt == Some(now)
  {
    var g0 := UpdateInitData(g);
    var parsed := ParseData(g0.cache.xmlString, parse);
    var applied := ApplyData(g0, parsed);
    var g1 := UpdateStatus(kind, applied.glif, parsed, parse, now);
    Applied(g1.(updatedAt := Some(now)), applied.removeOldFile)
  }

  /** A save whose payload parses leaves the row's cache equal to the parsed
      fields, and asks for the old file's removal exactly when the row had a
      filename and the payload names another. */
  lemma SaveRowCachesPayload(kind: GlifKind, g: Glif, parse: string -> Option<GlifData>, now: int)
    requires ParseData(g.cache.xmlString, parse).Some?
    ensures var p, r := ParseData(g.cache.xmlString, parse).value, SaveRow(kind, g, parse, now);
      && r.glif.cache == p.fields
      && (r.removeOldFile <==> g.cache.filename != "" && g.cache.filename != p.fields.filename)
  {
    var g0 := UpdateInitData(g);
    var parsed := ParseData(g0.cache.xmlString, parse);
    var applied := ApplyData(g0, parsed);
    assert applied.glif.cache == parsed.value.fields;
  }

  /** A save runs `_update_status`: on a status-bearing row whose remembered
      payload differs from the parsed current one, the row ends with the
      status derived from the new payload, the new payload remembered, and
      `previous_status` and `status_changed_at` moved exactly on a change. */
  lemma SaveDerivesStatus(kind: GlifKind, g: Glif, p: GlifData, parse: string -> Option<GlifData>, now: int)
    requires !IsLayer(kind) && Truthy(g.initData)
    requires ParseData(g.cache.xmlString, parse) == Some(p)
    requires g.initData.value != p.fields.xmlString
    ensures var r := SaveRow(kind, g, parse, now).glif;
      && r.st.status == Status.GetStatusFromData(p.status, p.statusColor)
      && r.initData == Some(p.fields.xmlString)
      && (r.st.status != g.st.status ==>
            r.st.previousStatus == g.st.status && r.st.statusChangedAt == Some(now))
      && (r.st.status == g.st.status ==>
            r.st.previousStatus == g.st.previousStatus && r.st.statusChangedAt == g.st.statusChangedAt)
  {
    var applied := ApplyData(g, Some(p));
    assert applied.glif == g.(cache := p.fields);
    assert UpdateInitData(applied.glif).initData != Some(applied.glif.cache.xmlString);
  }

  /** A save raises the downgrade flag when a variation that the remembered
      payload had at done is below done in the new payload. */
  lemma SaveRaisesDowngrade(kind: GlifKind, g: Glif, p: GlifData, e: GlifData,
                            parse: string -> Option<GlifData>, now: int, key: string)
    requires !IsLayer(kind) && Truthy(g.initData)
    requires ParseData(g.cache.xmlString, parse) == Some(p)
    requires g.initData.value != p.fields.xmlString && parse(g.initData.value) == Some(e)
    requires key in p.statusWithVariations
    requires EarlierValue(e.statusWithVariations, key) == 4 && p.statusWithVariations[key] < 4
    ensures var r := SaveRow(kind, g, parse, now).glif;
      r.st.downgraded && r.st.downgradedAt == (if g.st.downgraded then g.st.downgradedAt else Some(now))
  {
    var applied := ApplyData(g, Some(p));
    assert applied.glif == g.(cache := p.fields);
    UpdateStatusRaisesDowngrade(kind, applied.glif, p, e, parse, now, key);
  }

  /** A save whose new payload moves no variation across done, against a
      remembered payload that parses, leaves the flag and its time alone. */
  lemma SaveKeepsFlagWithoutCrossing(kind: GlifKind, g: Glif, p: GlifData, e: GlifData,
                                     parse: string -> Option<GlifData>, now: int)
    requires !IsLayer(kind) && Truthy(g.initData)
    requires ParseData(g.cache.xmlString, parse) == Some(p)
    requires g.initData.value != p.fields.xmlString && parse(g.initData.value) == Some(e)
    requires forall k :: k in p.statusWithVariations ==>
      && !(EarlierValue(e.statusWithVariations, k) == 4 && p.statusWithVariations[k] < 4)
      && !(EarlierValue(e.statusWithVariations, k) < 4 && p.statusWithVariations[k] == 4)
    ensures var r := SaveRow(kind, g, parse, now).glif;
      r.st.downgraded == g.st.downgraded && r.st.downgradedAt == g.st.downgradedAt
  {
    var applied := ApplyData(g, Some(p));
    assert applied.glif == g.(cache := p.fields);
    UpdateStatusKeepsFlagWithoutCrossing(kind, applied.glif, p, e, parse, now);
  }

  /** A save whose payload does not parse keeps every cached field and the
      status; only the remembered payload and `updated_at` change. */
  lemma SaveRowKeepsCacheOnParseError(kind: GlifKind, g: Glif, parse: string -> Option<GlifData>, now: int)
    requires ParseData(g.cache.xmlString, parse).None?
    ensures var r := SaveRow(kind, g, parse, now);
      !r.removeOldFile && r.glif == g.(initData := r.glif.initData, updatedAt := Some(now))
  {
  }

  /** Saving a row a second time, with a parser that reads its own formatted
      output back unchanged, changes nothing but `updated_at`: the cache, the
      status, the downgrade flag and the remembered payload stay put, and no
      file removal is asked for. */
  lemma {:induction false} SaveRowTwiceIsStable(kind: GlifKind, g: Glif, parse: string -> Option<GlifData>,
                                                now1: int, now2: int)
    requires ParseData(g.cache.xmlString, parse).Some?
    requires var p := ParseData(g.cache.xmlString, parse).value;
      p.fields.xmlString != "" && parse(p.fields.xmlString) == Some(p)
    ensures var r1 := SaveRow(kind, g, parse, now1);
      SaveRow(kind, r1.glif, parse, now2) == Applied(r1.glif.(updatedAt := Some(now2)), false)
  {
    var p := ParseData(g.cache.xmlString, parse).value;
    var r1 := SaveRow(kind, g, parse, now1);
    SaveRowCachesPayload(kind, g, parse, now1);
    assert r1.glif.cache == p.fields;
    assert Truthy(r1.glif.initData);
    assert !IsLayer(kind) ==> r1.glif.initData == Some(p.fields.xmlString);
    var h := r1.glif;
    var h0 := UpdateInitData(h);
    assert h0 == h;
    var applied := ApplyData(h0, Some(p));
    assert applied == Applied(h, false);
    assert UpdateStatus(kind, h, Some(p), parse, now2) == h;
  }

  /** The result of a whole `save`: the store afterwards, whether the row's old
      file was asked to be removed, and what `_update_components` answered. */
  datatype Saved = Saved(store: Store, removeOldFile: bool, linked: bool)

  /** `save`: the row part, the write, then the relinking of the row's
      components from the freshly written row. Other rows and the tombstones
      are untouched, and so are the relations of other rows. */
  function Save(store: Store, id: GlifId, parse: string -> Option<GlifData>, now: int): (r: Saved)
    requires id in store.glifs && WellOwned(id, store.glifs[id])
    ensures var row := SaveRow(id.kind, store.glifs[id], parse, now);
      && r.store.glifs == store.glifs[id := row.glif]
      && r.removeOldFile == row.removeOldFile
      && (r.linked <==> row.glif.cache.hasComponents && ComponentTargets(id.kind) != [])
    ensures r.store.tombstones == store.tombstones
    ensures forall key :: key in store.links && !(key.0 == id && key.1 in ComponentTargets(id.kind)) ==>
      key in r.store.links && r.store.links[key] == store.links[key]
    ensures forall key :: key in r.store.links ==>
      key in store.links || (key.0 == id && key.1 in ComponentTargets(id.kind))
    ensures !r.linked ==> r.store.links == store.links
    ensures r.linked ==> forall k, j :: k in ComponentTargets(id.kind) ==>
      (id, k) in r.store.links &&
      (j in r.store.links[(id, k)] <==>
        && j in r.store.glifs && j.kind == k
        && r.store.glifs[j].owner == r.store.glifs[id].owner
        && r.store.glifs[j].cache.name in ComponentsNames(r.store.glifs[id].cache.componentsStr))
  {
    var row := SaveRow(id.kind, store.glifs[id], parse, now);
    var s1 := store.(glifs := store.glifs[id := row.glif]);
    var linked := UpdateComponents(s1, id);
    Saved(linked.store, row.removeOldFile, linked.changed)
  }
}

=== FILE: glifs.dfy ===
/** The glif records: one generic record shape shared by the five glif
    tables, the parsed payload it caches fields from, the in-memory store of
    all tables with their component relations, and the deletion tombstone. */
module Glifs {

  import opened Common
  import Text
  import Locking

  /** The five glif tables. */
  datatype GlifKind =
    | AtomicElement
    | AtomicElementLayer
    | DeepComponent
    | CharacterGlyph
    | CharacterGlyphLayer

  /** Layers have a parent glif and a group name instead of a font and a status. */
  predicate IsLayer(k: GlifKind) {
    k == AtomicElementLayer || k == CharacterGlyphLayer
  }

  /** The component relations of each kind (`get_components_managers`):
      a character glyph links character glyphs and deep components, a deep
      component links atomic elements, and every other kind links nothing. */
  function ComponentTargets(k: GlifKind): (targets: seq<GlifKind>)
    ensures forall i :: 0 <= i < |targets| ==> !IsLayer(targets[i])
    ensures k == CharacterGlyph ==> targets == [CharacterGlyph, DeepComponent]
    ensures k == DeepComponent ==> targets == [AtomicElement]
    ensures k != CharacterGlyph && k != DeepComponent ==> targets == []
  {
    match k
    case CharacterGlyph => [CharacterGlyph, DeepComponent]
    case DeepComponent => [AtomicElement]
    case _ => []
  }

  /** What an object handed to the tombstone code may be: one of the five
      glif kinds, or some other model instance. */
  datatype ModelInstance = GlifInstance(kind: GlifKind) | OtherInstance(className: string)

  /** The `glif_type` tag stored in a tombstone for each kind. */
  function GlifTypeTag(k: GlifKind): string {
    match k
    case AtomicElement => "atomic_element"
    case AtomicElementLayer => "atomic_element_layer"
    case DeepComponent => "deep_component"
    case CharacterGlyph => "character_glyph"
    case CharacterGlyphLayer => "character_glyph_layer"
  }

  /** The kind a `glif_type` tag stands for; `None` for a string that is no tag. */
  function KindOfTag(tag: string): Option<GlifKind> {
    if tag == "atomic_element" then Some(AtomicElement)
    else if tag == "atomic_element_layer" then Some(AtomicElementLayer)
    else if tag == "deep_component" then Some(DeepComponent)
    else if tag == "character_glyph" then Some(CharacterGlyph)
    else if tag == "character_glyph_layer" then Some(CharacterGlyphLayer)
    else None
  }

  /** `DeletedGlif.get_glif_type_by_glif`: the tag of a glif, and a
      `ValueError` for any other object. */
  function GlifTypeByGlif(x: ModelInstance): (r: Result<string>)
    ensures r.Ok? <==> x.GlifInstance?
    ensures r.Ok? ==> KindOfTag(r.value) == Some(x.kind)
  {
    match x
    case GlifInstance(k) => Ok(GlifTypeTag(k))
    case OtherInstance(name) => Err("Invalid glif: " + name)
  }

  /** Two different kinds never share a tag, so the tag identifies the table. */
  lemma GlifTypeTagInjective(a: GlifKind, b: GlifKind)
    requires GlifTypeTag(a) == GlifTypeTag(b)
    ensures a == b
  {
    assert KindOfTag(GlifTypeTag(a)) == Some(a);
    assert KindOfTag(GlifTypeTag(b)) == Some(b);
  }

  /** The fields a glif row caches from its parsed payload: the formatted
      xml, the name and filename, the unicode list, the five shape flags and
      the comma-separated component names. */
  datatype Cache = Cache(
    xmlString: string,
    name: string,
    filename: string,
    unicodeHex: string,
    isEmpty: bool,
    hasVariationAxis: bool,
    hasOutlines: bool,
    hasComponents: bool,
    hasUnicode: bool,
    componentsStr: string)

  /** The parsed form of a glif's xml as the parser delivers it: the cached
      fields plus the status index, the legacy mark colour and the status of
      each variation. The parser itself is not part of this model. */
  datatype GlifData = GlifData(
    fields: Cache,
    status: Option<int>,
    statusColor: Option<string>,
    statusWithVariations: map<string, int>)

  /** The status columns of a status-bearing glif. */
  datatype StatusFields = StatusFields(
    status: string,
    previousStatus: string,
    statusChangedAt: Option<int>,
    downgraded: bool,
    downgradedAt: Option<int>)

  /** Where a glif hangs: a font for the three main kinds, a parent glif and
      a group name for the two layer kinds. */
  datatype Owner = FontOwner(font: nat) | LayerOwner(glif: nat, groupName: string)

  /** One glif row together with the in-memory `_init_data` snapshot of its
      instance. `cache.xmlString` is the `data` column; `updatedAt` is the
      timestamp a save stamps. */
  datatype Glif = Glif(
    owner: Owner,
    deleted: bool,
    cache: Cache,
    st: StatusFields,
    lock: Locking.LockState,
    updatedAt: Option<int>,
    layersUpdatedAt: Option<int>,
    initData: Option<string>)

  /** A row's key: its table and its primary key within that table. */
  datatype GlifId = GlifId(kind: GlifKind, pk: nat)

  /** A row of the tombstone table (`DeletedGlif`). */
  datatype Tombstone = Tombstone(
    deletedAt: int,
    deletedBy: Option<nat>,
    font: nat,
    glifType: string,
    glifId: nat,
    groupName: string,
    name: string,
    filename: string,
    filepath: string)

  /** All glif tables, the component relations keyed by (owner row, target
      table), and the tombstone table. */
  datatype Store = Store(
    glifs: map<GlifId, Glif>,
    links: map<(GlifId, GlifKind), set<GlifId>>,
    tombstones: seq<Tombstone>)

  /** The schema's foreign keys: a layer row hangs under a parent glif, every
      other row under a font. */
  predicate WellOwned(id: GlifId, g: Glif) {
    IsLayer(id.kind) <==> g.owner.LayerOwner?
  }

  /** `components_names`: the comma-separated names listed in `components`,
      empty segments dropped. */
  function ComponentsNames(components: string): (names: seq<string>)
    ensures forall i :: 0 <= i < |names| ==> names[i] != "" && Text.CommaFree(names[i])
    ensures forall n :: n in names <==> n != "" && n in Text.SplitOnComma(components)
  {
    var parts := Text.SplitOnComma(components);
    var names := Text.DropEmpty(parts);
    assert forall i :: 0 <= i < |names| ==> names[i] in parts;
    names
  }

  /** Writing a list of names comma-separated and reading it back with
      `components_names` recovers the list exactly. */
  lemma ComponentsNamesRoundTrip(names: seq<string>)
    requires forall i :: 0 <= i < |names| ==> names[i] != "" && Text.CommaFree(names[i])
    ensures ComponentsNames(Text.Join(names, ",")) == names
  {
    if |names| == 0 {
      assert Text.SplitOnComma("") == [""];
    } else {
      Text.SplitJoinRoundTrip(names);
      Text.DropEmptyKeepsNonEmpty(names);
    }
  }

  /** Empty segments are dropped: leading, trailing and doubled commas name nothing. */
  lemma ComponentsNamesDropEmptySegments()
    ensures ComponentsNames(",a,,b,") == ["a", "b"]
    ensures ComponentsNames("") == []
  {
    assert Text.SplitOnComma("") == [""];
    Text.SplitAfterPrefix("b", "");
    assert "b" + "," + "" == "b,";
    Text.SplitAfterPrefix("", "b,");
    assert "" + "," + "b," == ",b,";
    Text.SplitAfterPrefix("a", ",b,");
    assert "a" + "," + ",b," == "a,,b,";
    Text.SplitAfterPrefix("", "a,,b,");
    assert "" + "," + "a,,b," == ",a,,b,";
    assert Text.SplitOnComma(",a,,b,") == ["", "a", "", "b", ""];
  }
}

=== FILE: layers.dfy ===
/** The two layer tables (`CharacterGlyphLayer`, `AtomicElementLayer`) and
    the `layers_updated_at` stamp their parents keep: renaming a layer's
    group, saving a layer, and recomputing the parent's stamp from its
    layers and from the tombstones of its deleted layers. */
module Layers {

  import opened Common
  import opened Glifs
  import GlifDataModel
  import opened Timestamps

  /** The table a layer's parent glif lives in. */
  function ParentKind(k: GlifKind): (p: GlifKind)
    requires IsLayer(k)
    ensures (p == CharacterGlyph || p == AtomicElement) && LayerKind(p) == k
  {
    if k == CharacterGlyphLayer then CharacterGlyph else AtomicElement
  }

  /** The layer table of a parent table; only character glyphs and atomic
      elements have layers. */
  function LayerKind(p: GlifKind): GlifKind
    requires p == CharacterGlyph || p == AtomicElement
  {
    if p == CharacterGlyph then CharacterGlyphLayer else AtomicElementLayer
  }

  /** A layer after `rename`, and whether its old file was asked to be removed. */
  datatype Renamed = Renamed(glif: Glif, removeOldFile: bool)

  /** `rename`: renaming to the current group name does nothing; otherwise the
      layer's file (named after the old group) is asked to be removed and the
      group name changes, nothing else. */
  function Rename(g: Glif, newGroupName: string): (r: Renamed)
    requires g.owner.LayerOwner?
    ensures g.owner.groupName == newGroupName ==> r == Renamed(g, false)
    ensures g.owner.groupName != newGroupName ==>
      r.removeOldFile && r.glif == g.(owner := LayerOwner(g.owner.glif, newGroupName))
  {
    if g.owner.groupName == newGroupName then Renamed(g, false)
    else Renamed(g.(owner := g.owner.(groupName := newGroupName)), true)
  }

  /** Renaming twice to the same name is the same as renaming once, and
      renaming back restores the layer. */
  lemma RenameIdempotentAndReversible(g: Glif, name: string)
    requires g.owner.LayerOwner?
    ensures Rename(Rename(g, name).glif, name) == Renamed(Rename(g, name).glif, false)
    ensures Rename(Rename(g, name).glif, g.owner.groupName).glif == g
  {
  }

  /** The `updated_at` values of the layers under parent row `parentPk` of table `lk`. */
  function LayerTimes(store: Store, lk: GlifKind, parentPk: nat): set<int> {
    set j | j in store.glifs && j.kind == lk && store.glifs[j].owner.LayerOwner?
            && store.glifs[j].owner.glif == parentPk && store.glifs[j].updatedAt.Some?
      :: store.glifs[j].updatedAt.value
  }

  /** The `deleted_at` values of the tombstones of table `lk` whose `glif_id` is `parentPk`. */
  function DeletedLayerTimes(store: Store, lk: GlifKind, parentPk: nat): set<int> {
    set i | 0 <= i < |store.tombstones| && store.tombstones[i].glifType == GlifTypeTag(lk)
            && store.tombstones[i].glifId == parentPk
      :: store.tombstones[i].deletedAt
  }

  /** `update_layers_updated_at`: the parent's stamp becomes the latest of its
      layers' `updated_at` and the `deleted_at` of the layer-table tombstones
      whose `glif_id` is the parent's id, and is absent only when there is
      neither. Nothing else in the store changes. */
  method UpdateLayersUpdatedAt(store: Store, parent: GlifId) returns (r: Store)
    requires parent in store.glifs && (parent.kind == CharacterGlyph || parent.kind == AtomicElement)
    ensures var times := LayerTimes(store, LayerKind(parent.kind), parent.pk)
                         + DeletedLayerTimes(store, LayerKind(parent.kind), parent.pk);
      parent in r.glifs &&
      var stamp := r.glifs[parent].layersUpdatedAt;
      && r == store.(glifs := store.glifs[parent := store.glifs[parent].(layersUpdatedAt := stamp)])
      && (stamp.None? <==> times == {})
      && (stamp.Some? ==> IsMax(stamp.value, times))
  {
    var lk := LayerKind(parent.kind);
    var updated := MaxOf(LayerTimes(store, lk, parent.pk));
    var deleted := MaxOf(DeletedLayerTimes(store, lk, parent.pk));
    LatestOfMaxima(updated, deleted, LayerTimes(store, lk, parent.pk), DeletedLayerTimes(store, lk, parent.pk));
    var stamp := LatestOf(updated, deleted);
    r := store.(glifs := store.glifs[parent := store.glifs[parent].(layersUpdatedAt := stamp)]);
  }

  /** A layer's `save`: the glif save of the layer row, then the refresh of its
      parent's stamp, which afterwards is no earlier than the save time. */
  method LayerSave(store: Store, id: GlifId, parse: string -> Option<GlifData>, now: int)
    returns (r: GlifDataModel.Saved)
    requires id in store.glifs && IsLayer(id.kind) && WellOwned(id, store.glifs[id])
    requires GlifId(ParentKind(id.kind), store.glifs[id].owner.glif) in store.glifs
    ensures var parent := GlifId(ParentKind(id.kind), store.glifs[id].owner.glif);
      && r.store.glifs.Keys == store.glifs.Keys
      && r.store.glifs[id] == GlifDataModel.SaveRow(id.kind, store.glifs[id], parse, now).glif
      && r.store.glifs[parent].layersUpdatedAt.Some?
      && r.store.glifs[parent].layersUpdatedAt.value >= now
      && r.store.glifs[parent] == store.glifs[parent].(layersUpdatedAt := r.store.glifs[parent].layersUpdatedAt)
      && (forall j :: j in store.glifs && j != id && j != parent ==> r.store.glifs[j] == store.glifs[j])
    ensures r.store.links == store.links && r.store.tombstones == store.tombstones
    ensures var parent := GlifId(ParentKind(id.kind), store.glifs[id].owner.glif);
      var saved := GlifDataModel.Save(store, id, parse, now).store;
      var times := LayerTimes(saved, id.kind, parent.pk) + DeletedLayerTimes(saved, id.kind, parent.pk);
      parent in r.store.glifs && IsMax(r.store.glifs[parent].layersUpdatedAt.value, times)
    ensures !r.linked
  {
    var saved := GlifDataModel.Save(store, id, parse, now);
    var parent := GlifId(ParentKind(id.kind), store.glifs[id].owner.glif);
    var lk := LayerKind(parent.kind);
    assert now in LayerTimes(saved.store, lk, parent.pk) by {
      assert id in saved.store.glifs && saved.store.glifs[id].updatedAt == Some(now);
    }
    var s := UpdateLayersUpdatedAt(saved.store, parent);
    r := GlifDataModel.Saved(s, saved.removeOldFile, saved.linked);
  }
}

=== FILE: locking.dfy ===
/** The exclusive edit lock every status-bearing glif carries
    (`LockableModel`): three fields, no expiry, and an administrative
    force-unlock as the only way to clear a lock its holder abandoned. */
module Locking {

  import opened Common

  /** The requesting user as the web layer supplies it; `None` is a missing user. */
  datatype User = User(id: nat, isAnonymous: bool, isActive: bool)

  /** The three lock columns of a record; `lockedBy` holds the holder's user id. */
  datatype LockState = LockState(isLocked: bool, lockedBy: Option<nat>, lockedAt: Option<int>)

  /** The result of a lock or unlock call: the returned boolean and the record afterwards. */
  datatype LockOutcome = LockOutcome(done: bool, state: LockState)

  /** The state of a record that nobody holds. */
  const Unlocked := LockState(false, None, None)

  /** The three lock fields agree: a locked record names a holder and a time,
      an unlocked one names neither. */
  predicate Agree(s: LockState) {
    if s.isLocked then s.lockedBy.Some? && s.lockedAt.Some?
    else s.lockedBy.None? && s.lockedAt.None?
  }

  /** `_is_valid_user`: a present, authenticated, active user. */
  predicate IsValidUser(u: Option<User>) {
    u.Some? && !u.value.isAnonymous && u.value.isActive
  }

  /** `lock_by`: a valid user takes an unlocked record, stamping the holder and
      the time together; in every other case, including a caller who already
      holds the lock, the call answers false and changes nothing. */
  function LockBy(s: LockState, u: Option<User>, now: int): (r: LockOutcome)
    ensures r.done <==> IsValidUser(u) && !s.isLocked
    ensures r.done ==> r.state == LockState(true, Some(u.value.id), Some(now))
    ensures !r.done ==> r.state == s
  {
    if !IsValidUser(u) then LockOutcome(false, s)
    else if !s.isLocked then LockOutcome(true, LockState(true, Some(u.value.id), Some(now)))
    else LockOutcome(false, s)
  }

  /** `is_lockable_by`: a valid user and an unlocked record. */
  function IsLockableBy(s: LockState, u: Option<User>): bool {
    if !IsValidUser(u) then false else !s.isLocked
  }

  /** `is_locked_by`: the record is locked and its holder is this valid user;
      a lock whose holder was deleted is held by nobody. */
  function IsLockedBy(s: LockState, u: Option<User>): bool {
    if !IsValidUser(u) then false
    else if s.isLocked then s.lockedBy == Some(u.value.id)
    else false
  }

  /** `unlock_by`. Without `force` an invalid user is refused. A locked record
      is cleared, all three fields at once, when forced or asked by its holder,
      and otherwise left as it is with a false answer. An unlocked record
      answers true and is left as it is. */
  function UnlockBy(s: LockState, u: Option<User>, force: bool): (r: LockOutcome)
    ensures !IsValidUser(u) && !force ==> r == LockOutcome(false, s)
    ensures (IsValidUser(u) || force) && s.isLocked ==>
      (r.done <==> force || (u.Some? && s.lockedBy == Some(u.value.id)))
    ensures (IsValidUser(u) || force) && s.isLocked ==>
      r.state == (if r.done then Unlocked else s)
    ensures (IsValidUser(u) || force) && !s.isLocked ==> r == LockOutcome(true, s)
  {
    if !IsValidUser(u) && !force then LockOutcome(false, s)
    else if s.isLocked then
      // `force` short-circuits, so an absent user's id is never read
      if force || s.lockedBy == Some(u.value.id) then LockOutcome(true, Unlocked)
      else LockOutcome(false, s)
    else LockOutcome(true, s)
  }

  /** Deleting user `uid`: the `locked_by` key is set to null (`SET_NULL`) and
      nothing else is touched. */
  function DeleteUser(s: LockState, uid: nat): (r: LockState)
    ensures r.isLocked == s.isLocked && r.lockedAt == s.lockedAt
    ensures r.lockedBy == (if s.lockedBy == Some(uid) then None else s.lockedBy)
  {
    if s.lockedBy == Some(uid) then s.(lockedBy := None) else s
  }

  /** `is_lockable_by(u)` answers exactly whether `lock_by(u)` would succeed. */
  lemma LockableIffLockSucceeds(s: LockState, u: Option<User>, now: int)
    ensures IsLockableBy(s, u) <==> LockBy(s, u, now).done
  {
  }

  /** Locking and unlocking keep the three lock fields in agreement. */
  lemma LockUnlockPreserveAgreement(s: LockState, u: Option<User>, now: int, force: bool)
    requires Agree(s)
    ensures Agree(LockBy(s, u, now).state)
    ensures Agree(UnlockBy(s, u, force).state)
  {
  }

  /** After a successful lock the caller holds it and nobody can take it. */
  lemma LockedByAfterLock(s: LockState, u: Option<User>, v: Option<User>, now: int)
    requires LockBy(s, u, now).done
    ensures IsLockedBy(LockBy(s, u, now).state, u)
    ensures !IsLockableBy(LockBy(s, u, now).state, v)
  {
  }

  /** The holder of a lock cannot lock again: the second call answers false. */
  lemma HolderCannotRelock(s: LockState, u: Option<User>, now: int)
    requires IsLockedBy(s, u)
    ensures LockBy(s, u, now) == LockOutcome(false, s)
  {
  }

  /** A forced unlock always answers true and leaves the record unlocked,
      whoever asks and whatever the three fields held. A locked record, an
      orphaned one included, ends with all three fields cleared; an unlocked
      record is left as it was, so one whose fields agree ends cleared too. */
  lemma ForceUnlockAlwaysSucceeds(s: LockState, u: Option<User>)
    ensures UnlockBy(s, u, true).done
    ensures !UnlockBy(s, u, true).state.isLocked
    ensures s.isLocked || Agree(s) ==> UnlockBy(s, u, true).state == Unlocked
  {
  }

  /** A holder's own unlock releases the lock, after which anyone valid may take it. */
  lemma HolderUnlockThenRelock(s: LockState, u: Option<User>, v: Option<User>, now: int)
    requires IsLockedBy(s, u) && IsValidUser(v)
    ensures UnlockBy(s, u, false) == LockOutcome(true, Unlocked)
    ensures LockBy(UnlockBy(s, u, false).state, v, now).done
  {
  }

  /** Deleting the user who holds a lock breaks the agreement: the record
      stays locked, with a time, and with no holder. */
  lemma DeletingHolderBreaksAgreement(s: LockState, uid: nat)
    requires Agree(s) && s.isLocked && s.lockedBy == Some(uid)
    ensures !Agree(DeleteUser(s, uid))
    ensures DeleteUser(s, uid).isLocked
  {
  }

  /** A lock whose holder was deleted is held by nobody, can be taken by
      nobody, and is released by nobody except through `force`. */
  lemma OrphanedLockNeedsForce(s: LockState, u: Option<User>, now: int)
    requires s.isLocked && s.lockedBy.None?
    ensures !IsLockedBy(s, u) && !IsLockableBy(s, u)
    ensures !LockBy(s, u, now).done
    ensures UnlockBy(s, u, false) == LockOutcome(false, s)
    ensures UnlockBy(s, u, true) == LockOutcome(true, Unlocked)
  {
  }

  /** The admin "Unlock selected glyphs" action: force-unlock every selected
      record in turn and count the calls that answered true. */
  method UnlockSelected(selected: seq<LockState>, u: Option<User>)
    returns (unlocked: nat, after: seq<LockState>)
    ensures |after| == |selected|
    ensures unlocked == |selected|
    ensures forall i :: 0 <= i < |after| ==> after[i] == UnlockBy(selected[i], u, true).state
    ensures forall i :: 0 <= i < |after| ==> !after[i].isLocked
  {
    unlocked := 0;
    after := [];
    var k := 0;
    while k < |selected|
      invariant 0 <= k <= |selected|
      invariant |after| == k
      invariant unlocked == k
      invariant forall i :: 0 <= i < k ==> after[i] == UnlockBy(selected[i], u, true).state
      invariant forall i :: 0 <= i < k ==> !after[i].isLocked
    {
      var r := UnlockBy(selected[k], u, true);
      if r.done {
        unlocked := unlocked + 1;
      }
      after := after + [r.state];
      k := k + 1;
    }
  }
}

=== FILE: projects.dfy ===
/** The project-level pieces of the export: who becomes a designer of a
    project, which git branch its repository follows, which font folders a
    pulled repository holds that no font of the project owns any more, and
    how the return code of a shell command line is treated. */
module Projects {

  import Text

  /** The project columns the export reads, with its designers' user ids. */
  datatype Project = Project(name: string, repoBranch: string, designers: set<nat>)

  /** The branch a new project row is given. */
  const DefaultBranch := "master"

  /** The branch used when the project's branch column is empty. */
  const FallbackBranch := "main"

  /** A new project row: the default branch and no designers yet. */
  function NewProject(name: string): (p: Project)
    ensures p.repoBranch == DefaultBranch && p.designers == {} && p.name == name
  {
    Project(name, DefaultBranch, {})
  }

  /** `save_by`: the saving user becomes one of the project's designers;
      nothing else of the project changes. */
  function SaveBy(p: Project, user: nat): (r: Project)
    ensures user in r.designers
    ensures r.designers - {user} == p.designers - {user}
    ensures r.name == p.name && r.repoBranch == p.repoBranch
  {
    p.(designers := p.designers + {user})
  }

  /** Saving again by a designer changes nothing, and the designers only grow. */
  lemma SaveByIdempotent(p: Project, user: nat, other: nat)
    ensures SaveBy(SaveBy(p, user), user) == SaveBy(p, user)
    ensures p.designers <= SaveBy(p, user).designers
    ensures user in p.designers ==> SaveBy(p, user) == p
    ensures other != user ==> (other in SaveBy(p, user).designers <==> other in p.designers)
  {
  }

  /** `repo_branch or "main"`: the project's branch, or "main" when it is empty. */
  function RepoBranch(p: Project): (branch: string)
    ensures branch != ""
    ensures p.repoBranch != "" ==> branch == p.repoBranch
    ensures p.repoBranch == "" ==> branch == FallbackBranch
  {
    if p.repoBranch != "" then p.repoBranch else FallbackBranch
  }

  /** A project that kept its default branch follows "master", not the "main"
      fallback: the two defaults differ. */
  lemma DefaultBranchIsNotFallback(name: string)
    ensures RepoBranch(NewProject(name)) == DefaultBranch
    ensures DefaultBranch != FallbackBranch
  {
  }

  /** The `.rcjk` folders of a pulled repository that no font of the project
      owns: they are removed, and every folder a font owns is kept. */
  function StaleFontDirs(pulled: set<string>, fontDirs: set<string>): (stale: set<string>)
    ensures stale <= pulled && stale !! fontDirs
    ensures pulled - stale <= fontDirs
  {
    pulled - fontDirs
  }

  /** After the removal exactly the pulled folders of current fonts remain,
      and removing again finds nothing stale. */
  lemma StaleFontDirsLeaveFontDirs(pulled: set<string>, fontDirs: set<string>)
    ensures pulled - StaleFontDirs(pulled, fontDirs) == pulled * fontDirs
    ensures StaleFontDirs(pulled - StaleFontDirs(pulled, fontDirs), fontDirs) == {}
  {
  }

  /** The separator `run_commands` joins its commands with. */
  const CommandSeparator := " && "

  /** The single shell line `run_commands` runs: its commands joined with " && ". */
  function CommandLine(cmds: seq<string>): (line: string)
    ensures |cmds| == 1 ==> line == cmds[0]
    ensures |cmds| >= 2 ==> line == cmds[0] + CommandSeparator + CommandLine(cmds[1..])
    ensures line == "" <==> |cmds| == 0 || (|cmds| == 1 && cmds[0] == "")
  {
    Text.JoinEmptyIff(cmds, CommandSeparator);
    Text.Join(cmds, CommandSeparator)
  }

  /** What happens after the shell line exits: success, an exit status of 1
      passed over in silence (git's "nothing to commit"), or the error raised
      again, with a hint about the repository and branch for status 128. */
  datatype CommandOutcome = Succeeded | Swallowed | Raised(repoHint: bool)

  /** The return-code handling of `run_commands`. */
  function ClassifyReturnCode(code: int): (r: CommandOutcome)
    ensures r.Succeeded? <==> code == 0
    ensures r.Swallowed? <==> code == 1
    ensures r.Raised? <==> code != 0 && code != 1
    ensures r.Raised? ==> (r.repoHint <==> code == 128)
  {
    if code == 0 then Succeeded
    else if code == 1 then Swallowed
    else Raised(code == 128)
  }

  /** Only status 1 is swallowed: every other failing status, the repository
      error 128 included, reaches the caller. */
  lemma OnlyStatusOneIsSwallowed(code: int)
    requires code != 0
    ensures ClassifyReturnCode(code).Raised? <==> code != 1
    ensures ClassifyReturnCode(128) == Raised(true)
  {
  }
}

=== FILE: status.dfy ===
/** The review status shared by character glyphs, deep components and atomic
    elements (`StatusModel`): five named statuses with display colours, the
    legacy mark colours, and the rule that derives a status from a parsed glif. */
module Status {

  import opened Common
  import Text

  const Wip := "wip"
  const Checking1 := "checking-1"
  const Checking2 := "checking-2"
  const Checking3 := "checking-3"
  const Done := "done"

  /** The five named statuses, lowest review depth first. */
  const Named: seq<string> := [Wip, Checking1, Checking2, Checking3, Done]

  /** The colour shown for a status that is not one of the five. */
  const DefaultColor := "#000000"

  /** Display colour of each named status. */
  const StatusColors: map<string, string> := map[
    Wip := "#e74c3c",
    Checking1 := "#e67e22",
    Checking2 := "#f1c40f",
    Checking3 := "#2980b9",
    Done := "#27ae60"
  ]

  /** Legacy `public.markColor` RGBA strings and the status each stands for. */
  const MarkColors: map<string, string> := map[
    "1,0,0,1" := Wip,
    "1,0.5,0,1" := Checking1,
    "1,1,0,1" := Checking2,
    "0,0.5,1,1" := Checking3,
    "0,1,0.5,1" := Done
  ]

  /** `status_color`: the colour of a named status, black for anything else. */
  function StatusColor(status: string): (color: string)
    ensures status in Named ==> color == StatusColors[status]
    ensures color == DefaultColor <==> status !in Named
  {
    if status in StatusColors then StatusColors[status] else DefaultColor
  }

  /** `get_status_from_data`, given the parsed `status` index and `status_color`.
      An index present in the glif wins and is kept as its decimal string;
      otherwise a known mark colour gives its named status; otherwise "wip". */
  function GetStatusFromData(index: Option<int>, markColor: Option<string>): (status: string)
    ensures index.Some? ==> status == Text.IntToString(index.value) && Text.ParseInt(status) == index
    ensures index.None? ==> status in Named
    ensures index.None? && markColor.Some? && markColor.value in MarkColors ==>
      status == MarkColors[markColor.value]
    ensures index.None? && !(markColor.Some? && markColor.value in MarkColors) ==> status == Wip
  {
    if index.Some? then
      Text.IntToStringRoundTrip(index.value);
      Text.IntToString(index.value)
    else if markColor.Some? && markColor.value != "" && markColor.value in MarkColors then
      MarkColors[markColor.value]
    else Wip
  }

  /** A derived status is never absent: it is a non-empty string in every case. */
  lemma DerivedStatusNeverEmpty(index: Option<int>, markColor: Option<string>)
    ensures GetStatusFromData(index, markColor) != ""
  {
    if index.Some? {
      assert |Text.IntToString(index.value)| >= 1;
    }
  }

  /** A status kept from an index is never one of the five names (it starts
      with a digit or a minus sign), so it is displayed in the default black;
      the index 4 becomes "4", not "done". */
  lemma IndexedStatusIsUnnamed(i: int, markColor: Option<string>)
    ensures GetStatusFromData(Some(i), markColor) !in Named
    ensures StatusColor(GetStatusFromData(Some(i), markColor)) == DefaultColor
    ensures GetStatusFromData(Some(4), markColor) == "4"
  {
    var s := GetStatusFromData(Some(i), markColor);
    assert s[0] == '-' || '0' <= s[0] <= '9';
    assert s !in Named by {
      assert Wip[0] == 'w' && Checking1[0] == 'c' && Checking2[0] == 'c';
      assert Checking3[0] == 'c' && Done[0] == 'd';
    }
    assert Text.NatToString(4) == "4";
  }

  /** Every named status has exactly one mark colour that derives it, and each
      has its own non-black display colour. */
  lemma MarkColorsCoverNamed(status: string)
    requires status in Named
    ensures exists c :: c in MarkColors && GetStatusFromData(None, Some(c)) == status
    ensures StatusColor(status) != DefaultColor
    ensures forall c, d :: c in MarkColors && d in MarkColors && MarkColors[c] == MarkColors[d] ==> c == d
  {
    if status == Wip {
      assert GetStatusFromData(None, Some("1,0,0,1")) == status;
    } else if status == Checking1 {
      assert GetStatusFromData(None, Some("1,0.5,0,1")) == status;
    } else if status == Checking2 {
      assert GetStatusFromData(None, Some("1,1,0,1")) == status;
    } else if status == Checking3 {
      assert GetStatusFromData(None, Some("0,0.5,1,1")) == status;
    } else {
      assert GetStatusFromData(None, Some("0,1,0.5,1")) == status;
    }
  }
}

=== FILE: text.dfy ===
/** The string helpers the models rely on: Python's `str.split(",")`,
    `sep.join(...)`, `filter(None, ...)` and the decimal rendering `f"{i}"`
    of an integer, each with the inverse that gives it its meaning. */
module Text {

  import opened Common

  /** No character of `s` is a comma. */
  predicate CommaFree(s: string) {
    forall i :: 0 <= i < |s| ==> s[i] != ','
  }

  /** Python's `s.split(",")`: the comma-separated segments of `s` in order,
      empty segments included; there is always at least one segment. */
  function SplitOnComma(s: string): (parts: seq<string>)
    ensures |parts| >= 1
    ensures forall i :: 0 <= i < |parts| ==> CommaFree(parts[i])
    decreases |s|
  {
    if |s| == 0 then [""]
    else
      var rest := SplitOnComma(s[1..]);
      if s[0] == ',' then [""] + rest
      else [[s[0]] + rest[0]] + rest[1..]
  }

  /** Python's `sep.join(parts)`. */
  function Join(parts: seq<string>, sep: string): string
    decreases |parts|
  {
    if |parts| == 0 then ""
    else if |parts| == 1 then parts[0]
    else parts[0] + sep + Join(parts[1..], sep)
  }

  /** A join is empty exactly when there is nothing to join or a single
      empty part: with a non-empty separator two parts always leave it behind. */
  lemma {:induction false} JoinEmptyIff(parts: seq<string>, sep: string)
    requires sep != ""
    ensures Join(parts, sep) == "" <==> |parts| == 0 || (|parts| == 1 && parts[0] == "")
  {
    if |parts| >= 2 {
      assert |Join(parts, sep)| >= |sep|;
    }
  }

  /** Python's `list(filter(None, parts))`: the non-empty parts, in order. */
  function DropEmpty(parts: seq<string>): (kept: seq<string>)
    ensures forall i :: 0 <= i < |kept| ==> kept[i] != ""
    ensures forall x :: x in kept <==> x in parts && x != ""
    ensures |kept| <= |parts|
  {
    if |parts| == 0 then []
    else if parts[0] == "" then DropEmpty(parts[1..])
    else [parts[0]] + DropEmpty(parts[1..])
  }

  /** A string with no comma splits into itself alone. */
  lemma {:induction false} SplitCommaFree(p: string)
    requires CommaFree(p)
    ensures SplitOnComma(p) == [p]
    decreases |p|
  {
    if |p| > 0 {
      SplitCommaFree(p[1..]);
      assert [p[0]] + p[1..] == p;
    }
  }

  /** A comma-free prefix followed by a comma is split off as the first segment. */
  lemma {:induction false} SplitAfterPrefix(p: string, rest: string)
    requires CommaFree(p)
    ensures SplitOnComma(p + "," + rest) == [p] + SplitOnComma(rest)
    decreases |p|
  {
    var s := p + "," + rest;
    if |p| == 0 {
      assert s == "," + rest;
      assert s[1..] == rest;
    } else {
      assert s[1..] == p[1..] + "," + rest;
      SplitAfterPrefix(p[1..], rest);
      assert [p[0]] + p[1..] == p;
    }
  }

  /** Round trip one way: joining comma-free segments with "," and splitting
      again gives back exactly those segments. */
  lemma {:induction false} SplitJoinRoundTrip(parts: seq<string>)
    requires |parts| >= 1
    requires forall i :: 0 <= i < |parts| ==> CommaFree(parts[i])
    ensures SplitOnComma(Join(parts, ",")) == parts
    decreases |parts|
  {
    if |parts| == 1 {
      SplitCommaFree(parts[0]);
    } else {
      SplitJoinRoundTrip(parts[1..]);
      SplitAfterPrefix(parts[0], Join(parts[1..], ","));
      assert [parts[0]] + parts[1..] == parts;
    }
  }

  /** Round trip the other way: splitting on "," and joining with "," gives
      back the original string. */
  lemma {:induction false} JoinSplitRoundTrip(s: string)
    ensures Join(SplitOnComma(s), ",") == s
    decreases |s|
  {
    if |s| > 0 {
      var rest := SplitOnComma(s[1..]);
      JoinSplitRoundTrip(s[1..]);
      if s[0] == ',' {
        assert Join([""] + rest, ",") == "" + "," + Join(([""] + rest)[1..], ",");
        assert ([""] + rest)[1..] == rest;
      } else {
        var parts := [[s[0]] + rest[0]] + rest[1..];
        if |rest| == 1 {
          assert parts == [[s[0]] + rest[0]];
        } else {
          assert parts[1..] == rest[1..];
          assert Join(rest, ",") == rest[0] + "," + Join(rest[1..], ",");
        }
        assert s == [s[0]] + s[1..];
      }
    }
  }

  /** Dropping empty parts leaves a list with no empty part unchanged. */
  lemma {:induction false} DropEmptyKeepsNonEmpty(parts: seq<string>)
    requires forall i :: 0 <= i < |parts| ==> parts[i] != ""
    ensures DropEmpty(parts) == parts
    decreases |parts|
  {
    if |parts| > 0 {
      DropEmptyKeepsNonEmpty(parts[1..]);
      assert [parts[0]] + parts[1..] == parts;
    }
  }

  /** The decimal digit character of `d`. */
  function DigitChar(d: nat): (c: char)
    requires d < 10
    ensures '0' <= c <= '9'
  {
    (48 + d) as char
  }

  /** The numeric value of a decimal digit character. */
  function DigitValue(c: char): (d: nat)
    requires '0' <= c <= '9'
    ensures d < 10
  {
    (c as int - 48) as nat
  }

  predicate AllDigits(s: string) {
    forall i :: 0 <= i < |s| ==> '0' <= s[i] <= '9'
  }

  /** The decimal rendering of a natural number, most significant digit first. */
  function NatToString(n: nat): (s: string)
    ensures |s| >= 1 && AllDigits(s)
    decreases n
  {
    if n < 10 then [DigitChar(n)] else NatToString(n / 10) + [DigitChar(n % 10)]
  }

  /** Python's `f"{i}"` for an integer: a minus sign for negatives, then the digits. */
  function IntToString(i: int): (s: string)
    ensures |s| >= 1
    ensures s[0] == '-' || '0' <= s[0] <= '9'
  {
    if i < 0 then "-" + NatToString(-i) else NatToString(i)
  }

  /** The value of a string of decimal digits. */
  function DigitsValue(s: string): nat
    requires AllDigits(s)
    decreases |s|
  {
    if |s| == 0 then 0 else DigitsValue(s[..|s| - 1]) * 10 + DigitValue(s[|s| - 1])
  }

  /** Python's `int(s)` on the strings `f"{i}"` can produce: an optional minus
      sign followed by at least one digit; anything else is rejected. */
  function ParseInt(s: string): Option<int> {
    if |s| >= 2 && s[0] == '-' && AllDigits(s[1..]) then Some(-(DigitsValue(s[1..]) as int))
    else if |s| >= 1 && AllDigits(s) then Some(DigitsValue(s) as int)
    else None
  }

  /** Reading the digits of a rendered natural number gives the number back. */
  lemma {:induction false} NatToStringRoundTrip(n: nat)
    ensures DigitsValue(NatToString(n)) == n
    decreases n
  {
    var s := NatToString(n);
    if n >= 10 {
      NatToStringRoundTrip(n / 10);
      assert s[..|s| - 1] == NatToString(n / 10);
      assert s[|s| - 1] == DigitChar(n % 10);
    }
  }

  /** Parsing the rendering of any integer gives the integer back, so the
      rendering loses nothing. */
  lemma IntToStringRoundTrip(i: int)
    ensures ParseInt(IntToString(i)) == Some(i)
  {
    var s := IntToString(i);
    if i < 0 {
      var digits := NatToString(-i);
      assert s[1..] == digits;
      assert |s| >= 2 && s[0] == '-' && AllDigits(s[1..]);
      NatToStringRoundTrip(-i);
      assert ParseInt(s) == Some(-(DigitsValue(digits) as int));
    } else {
      assert s == NatToString(i);
      assert s[0] != '-' && AllDigits(s);
      NatToStringRoundTrip(i);
      assert ParseInt(s) == Some(DigitsValue(s) as int);
    }
  }

  /** Distinct integers have distinct renderings. */
  lemma IntToStringInjective(i: int, j: int)
    requires IntToString(i) == IntToString(j)
    ensures i == j
  {
    IntToStringRoundTrip(i);
    IntToStringRoundTrip(j);
  }
}

=== FILE: timestamps.dfy ===
/** Optional timestamps and the `Max` aggregate over them, as the database
    computes it for `layers_updated_at`. */
module Timestamps {

  import opened Common

  /** The later of two optional timestamps, absent only when both are. */
  function LatestOf(a: Option<int>, b: Option<int>): (r: Option<int>)
    ensures r.None? <==> a.None? && b.None?
    ensures r == a || r == b
    ensures a.Some? ==> a.value <= r.value
    ensures b.Some? ==> b.value <= r.value
  {
    if a.Some? && b.Some? then (if a.value >= b.value then a else b)
    else if a.Some? then a
    else b
  }

  /** `m` is the greatest element of `s`. */
  predicate IsMax(m: int, s: set<int>) {
    m in s && forall x :: x in s ==> x <= m
  }

  /** The `Max` aggregate: the greatest timestamp of a set, `None` for an empty set. */
  method MaxOf(s: set<int>) returns (r: Option<int>)
    ensures r.None? <==> s == {}
    ensures r.Some? ==> IsMax(r.value, s)
  {
    if s == {} {
      return None;
    }
    NonEmptyHasElement(s);
    var x: int :| x in s;
    var m := x;
    var rest := s - {x};
    while rest != {}
      invariant rest <= s
      invariant IsMax(m, s - rest)
      decreases rest
    {
      NonEmptyHasElement(rest);
      var y: int :| y in rest;
      var seen := s - rest;
      if m < y {
        m := y;
      }
      rest := rest - {y};
      assert s - rest == seen + {y};
    }
    assert s - rest == s;
    return Some(m);
  }

  /** A set that is not empty has an element. */
  lemma NonEmptyHasElement(s: set<int>)
    requires s != {}
    ensures exists x :: x in s
  {
    if forall x :: x !in s {
      assert false;
    }
  }

  /** The greatest elements of two sets combine into the greatest of their union. */
  lemma LatestOfMaxima(a: Option<int>, b: Option<int>, sa: set<int>, sb: set<int>)
    requires a.None? <==> sa == {}
    requires a.Some? ==> IsMax(a.value, sa)
    requires b.None? <==> sb == {}
    requires b.Some? ==> IsMax(b.value, sb)
    ensures LatestOf(a, b).None? <==> sa + sb == {}
    ensures LatestOf(a, b).Some? ==> IsMax(LatestOf(a, b).value, sa + sb)
  {
  }
}
